=== FILE: README.md ===
# geotools time epochs and reference ellipsoids, in Dafny

This project models two components of the `geotools` Python package.

**The time-epoch engine** is `geotools/time/time.py`:
- A `CoreGeoTime` holds one instant, counted in nanoseconds from 1970-01-01T00:00 on a uniform time scale (86 400 s days, no leap seconds), or numpy's not-a-time `NaT`.
- It also holds a resolution unit: D, h, m, s, ms, us or ns.
- Every representation the engine offers is a pure function of the instant:
  - calendar date, time of day, year and leap flag, and the 1-based day of year, all in the proleptic Gregorian calendar of section 3.2.1 of ISO 8601:2004;
  - seconds of day and the sub-second fraction;
  - GPS week and seconds of week from the GPS zero point 1980-01-06T00:00 (section 6.2.4 of IS-GPS-200);
  - the fractional year;
  - the offset from J2000;
  - MJD and JD.
- Two specialised constructors build an instant from a GPS week and seconds, or from a fractional year.

numpy casts datetimes and timedeltas to a coarser unit by rounding toward minus infinity. That is Dafny's `/` on a positive divisor, so every query is exact integer or rational arithmetic on the stored count, for instants before 1970 as well as after. The count is an unbounded integer, while numpy's `datetime64[ns]` is a signed 64-bit count (see "## Left out").

**The reference-ellipsoid model** is `geotools/ellipsoid/ellipsoid.py`:
- a registry of seven named (major semi-axis, inverse flattening) pairs;
- a factory that falls back to WGS84;
- the derived flattening f, minor semi-axis b, first eccentricity squared e1 and second eccentricity squared e2, as exact reals.

`EllipsoidCache` models the class's memo slots. It shows that reading through them always gives the derived value, so the memo cannot be observed. The `Float` datatype models the IEEE 754 values numpy's arithmetic reaches: the infinities and not-a-number. It is used to show what the sphere entry evaluates to as written.

The Python time code is unfinished:
- it reads `self.t` in some places and `self._timestamp` in others, and no object the constructors return has a `t`: `CoreGeoTime.__init__` sets only `_timestamp` (time.py:84) and the lines that would set `t` (time.py:109, 113) are commented out. So every query that reads `self.t`, `J2000` and `to_MJD` among them, raises `AttributeError`; the model reads the stored instant;
- it calls properties as methods;
- it calls the undefined `_assign_values` and `_nanosecond`;
- `GPST.__init__` passes its arguments to `super` in the wrong order;
- `resolution` is a read-only property (time.py:153-156), so the assignments to `self.resolution` in `_set_resolution` raise `AttributeError`;
- the class body binds `J2000` first to the epoch (time.py:67) and then to a property of the same name (time.py:268-269). So, on an object whose `t` holds the instant, `self.J2000` inside `J2000` and `to_MJD` reads the property, and `J2000`, `to_MJD` and `to_JD` recurse without end (see "## Findings");
- on NaT, `year` raises `ValueError` (`np.int64('NaT')` at time.py:188), and so do `is_leap` and `to_fYear`, which read it; `GPST` passes a NaN to `np.int64` (time.py:253);
- even with the epoch under the name `J2000`, the `J2000` property passes the resolution, a `timedelta64`, as the unit argument of `np.timedelta64` (time.py:273), and `to_JD` adds the `timedelta64` `JD_MJD0` to the float `to_MJD` returns (time.py:283). numpy rejects both with `TypeError`;
- `GPST` binds its local `decimals` only when the resolution is finer than 1 s (time.py:237-249) and reads it on every path (time.py:254-255). At a resolution of D, h, m or s, and at the NaT resolution the constructors store, it raises `UnboundLocalError`. The model reports 0 decimals there (see "## Findings").

The model follows the evident intent: one stored instant, with each query a plain function of it, and `None` for every query on NaT. The `if not self._x` memoisation is left out of the time engine, because no query has a side effect that the memo could hide.

Modules:
- `Wrappers`: `Option`.
- `Arith`: floor multiples and numpy's truncations (`Trunc`, `Modf`).
- `Calendar`: the leap rule, the start of each year, and the year a day number falls in.
- `GeoTime`: the instant, resolution fixing and every query.
- `GeoTimeConstructors`: `GPST(w, s)` and `fYear(fy)`.
- `Ellipsoids`: the registry, the factory, the derived quantities and numpy's float evaluation.
- `EllipsoidCache`: the memo.
- `GeoTimeAsWritten`: how the name `J2000` resolves as written, and where `GPST` leaves `decimals` unbound.

## Model

| member | source | states |
|---|---|---|
| GeoTime.EpochsAreCalendarDates | geotools/time/time.py:67-71 | J2000, GPST0 and MJD0 are 2000-01-01T12:00, 1980-01-06T00:00 and 1858-11-17T00:00 of the Gregorian calendar; MJD_J2000 is 51 544.5 days; JD_MJD0 places JD 0 at noon of 24 November 4714 BC |
| GeoTime.FixAt | geotools/time/time.py:128-129 | fixing an instant at a unit floors it to a multiple of the unit: t' <= t < t' + unit; NaT stays NaT |
| GeoTime.FromTimestamp | geotools/time/time.py:77-81 | the resolution is the one given, or else the timestamp's own unit (1 s for NaT); the stored instant is a multiple of it and at most one unit below the timestamp |
| GeoTime.FixAtIdempotent | geotools/time/time.py:128-129 | fixing twice at the same unit changes nothing more |
| GeoTime.FixAtCoarser | geotools/time/time.py:128-129 | fixing at a unit, then at a coarser unit it divides, is fixing at the coarser one directly |
| GeoTime.Date | geotools/time/time.py:170-175 | `date` is a whole day, and date <= t < date + 1 day |
| GeoTime.TimeOfDay | geotools/time/time.py:177-182 | `time` = t - date lies in [0, 86 400 s) |
| GeoTime.Year | geotools/time/time.py:184-189 | `year` is the year whose 1 January to next 1 January range holds the instant |
| Calendar.YearOfDay | geotools/time/time.py:184-189 | the 400/100/4/1-year cycle decomposition of a day number yields a year and a 0-based day that add back to the day number and fit in that year |
| Calendar.YearOfDayUnique | geotools/time/time.py:184-189 | a day lies in exactly one year: any year whose range holds it is the year the decomposition finds |
| Calendar.Fmod | geotools/time/time.py:201-203 | `np.fmod(year, m)` differs from `year` by a multiple of m, is smaller than m in size, and has the sign of `year` |
| Calendar.IsLeap | geotools/time/time.py:191-206 | leap iff divisible by 4 and either not by 100 or by 400, for every year including negative ones, with numpy's truncating `fmod` |
| Calendar.FmodZero | geotools/time/time.py:201-204 | numpy's truncating remainder and the floor remainder are zero together |
| Calendar.LeapExamples | geotools/time/time.py:196-197 | 2000 and 2004 are leap years; 1900 and 2023 are not |
| Calendar.DaysInYear | geotools/time/time.py:259-261 | a year's length by the leap rule (365 or 366) is the gap between its New Year and the next |
| GeoTime.IsLeapYear | geotools/time/time.py:191-206 | `is_leap` holds exactly when the instant's year is 366 days long |
| GeoTime.DaysOfYear | geotools/time/time.py:208-214 | `days_of_year` = (date - 1 January) + 1 day, between 1 and the length of the year |
| GeoTime.YearOfInstant | geotools/time/time.py:208-214 | an instant inside a year's range reads that year and the day counted from its 1 January plus one |
| GeoTime.NewYearIsDayOne | geotools/time/time.py:208-214 | any time on 1 January is day 1 of that year |
| GeoTime.SecondsOfDay | geotools/time/time.py:216-221 | `seconds_of_day` is the time of day floored to whole seconds, below 86 400 |
| GeoTime.FractionOfSeconds | geotools/time/time.py:223-228 | time = seconds_of_day + fraction, with 0 <= fraction < 1 s, and the fraction is t mod 1 s |
| GeoTime.KeptFraction | geotools/time/time.py:236-249 | the ms, then us, then ns parts kept for a resolution below 1 s, 1 ms and 1 us are the fraction truncated to 3, 6 or 9 decimals |
| GeoTime.Gpst | geotools/time/time.py:230-255 | weeks * 604 800 s + seconds of week + kept fraction is t - GPST0 cut down to the reported decimals, with 0 <= seconds < 604 800 |
| Arith.Modf | geotools/time/time.py:309 | `np.modf` splits x into a fraction and a whole number that add back to x, both with the sign of x and the fraction below 1 in size |
| Arith.Trunc | geotools/time/time.py:311-312 | `np.int64` of a float drops the fraction toward zero: the result is within 1 of x, on the zero side |
| GeoTimeConstructors.FromGpst | geotools/time/time.py:307-313 | `GPST(w, s)` is GPST0 + w weeks + s seconds, dropping less than 1 ns toward zero |
| GeoTimeConstructors.GpsRoundTrip | geotools/time/time.py:307-313 | building from (w, S + n * 10^-9) and reading `GPST` at ns resolution gives back w, S and n |
| GeoTimeConstructors.GpsFields | geotools/time/time.py:230-255 | an instant S seconds and n ns into GPS week w reads week w, second S and n ns at ns resolution |
| GeoTimeConstructors.GpsExample | geotools/time/time.py:307-313 | week 2190 with 432 000.5 s reads back as week 2190 with 432 000.5 s |
| GeoTimeConstructors.FromFYear | geotools/time/time.py:319-333 | `fYear(fy)` for fy >= 0 lands in year floor(fy), at most 1 ns below frac(fy) * (365 + is_leap) days after its 1 January |
| GeoTimeConstructors.FractionalYearOf | geotools/time/time.py:257-261 | for an instant in year y on day doy, `to_fYear` = y + doy / (365 + is_leap), and with days counted from 0 it is y + (doy - 1) / (365 + is_leap) |
| GeoTime.ToFYear | geotools/time/time.py:257-261 | `to_fYear` = year + day_of_year / (365 + is_leap) lies in (year, year + 1] |
| GeoTime.ToFYearFromDayZero | geotools/time/time.py:257-261 | with the days counted from 0, the fractional year lies in [year, year + 1) and is the year plus the completed days over the year's length |
| GeoTime.ToYD | geotools/time/time.py:263-266 | `to_YD` is the year, the day of year, and seconds of day with the fraction, which times 10^9 is the time of day in ns |
| GeoTime.SinceJ2000 | geotools/time/time.py:268-274 | `J2000` splits t - J2000 into whole seconds and a rest in [0, 1 s), which is counted in whole resolution units |
| GeoTime.ToMjd | geotools/time/time.py:276-279 | `to_MJD` is the days elapsed since MJD0 |
| GeoTime.ToJd | geotools/time/time.py:281-283 | `to_JD` is the days elapsed since noon of 24 November 4714 BC |
| GeoTime.MjdAtOrigins | geotools/time/time.py:276-283 | MJD(J2000) = 51 544.5, MJD(MJD0) = 0, JD(J2000) = 2 451 545 |
| GeoTime.MjdNextDay | geotools/time/time.py:276-279 | one day later the MJD is one more |
| GeoTime.JdMinusMjd | geotools/time/time.py:281-283 | JD - MJD = 2 400 000.5 for every instant |
| GeoTimeConstructors.DaysToNs | geotools/time/time.py:325-332 | whole days, then whole seconds, then whole ns of x days add up to within 1 ns below x days |
| GeoTimeConstructors.FromFYearSplit | geotools/time/time.py:319-323 | `fYear(y + d)` with a whole y >= 0 and 0 <= d < 1 starts from 1 January of y and adds the fraction d |
| GeoTimeConstructors.InYearBounds | geotools/time/time.py:319-333 | the fraction d of year y lands in [1 Jan y, 1 Jan y+1), within 1 ns below d * (365 + is_leap) days after 1 Jan y |
| GeoTimeConstructors.FYearYearAndDay | geotools/time/time.py:319-333 | `fYear(y + d)` falls in year y, on day floor(d * length) + 1 |
| GeoTimeConstructors.FYearThenToFYear | geotools/time/time.py:257-261 | `to_fYear(fYear(y + d))` = y + (floor(d * length) + 1) / length, up to one day past y + d |
| GeoTimeConstructors.FYearRoundTripMissesByADay | geotools/time/time.py:257-261 | 2020.5 reads back as 2020 + 184/366, not 2020.5 |
| GeoTimeConstructors.FYearRoundTrip | geotools/time/time.py:257-261 | counting from day 0, `fYear(y + d)` reads back r with r <= y + d < r + 1/length |
| GeoTimeConstructors.FYearRoundTripExample | geotools/time/time.py:257-261 | counting from day 0, 2020.5 reads back as exactly 2020.5 |
| GeoTimeAsWritten.ReadJ2000 | geotools/time/time.py:67-71 | `self.J2000` with the epoch bound is the epoch; with the property bound it never yields an instant |
| GeoTimeAsWritten.J2000Property | geotools/time/time.py:268-274 | the `J2000` property reading `self.J2000`; with the epoch bound to the name it is a `TypeError` as written (time.py:273), and `SinceJ2000` once that line takes the resolution's unit |
| GeoTimeAsWritten.ToMjdVia | geotools/time/time.py:276-279 | `to_MJD` reading `self.J2000`; with the epoch bound it equals `ToMjd`, with the property bound it never returns a value |
| GeoTimeAsWritten.ToJdVia | geotools/time/time.py:281-283 | `to_JD` on top of it; with the property bound it never returns a value; with the epoch bound it is a `TypeError` as written (time.py:283), and `ToJd` once `JD_MJD0` is added in days |
| GeoTimeAsWritten.J2000NeverReturns | geotools/time/time.py:268-271 | as written, once `self.t` holds the instant, reading `J2000` ends in a recursion error however many stack frames are left |
| GeoTimeAsWritten.J2000QueriesFail | geotools/time/time.py:268-283 | as written, once `self.t` holds the instant, `J2000`, `to_MJD` and `to_JD` of every instant end in a recursion error; with the epoch bound, `to_MJD` answers (51 544.5 at J2000), and `J2000` and `to_JD` answer exactly when time.py:273 and 283 are completed |
| GeoTimeAsWritten.GpstDecimalsAsWritten | geotools/time/time.py:237-249 | `decimals` is unbound exactly for a resolution of 1 s or coarser; where bound it is 3, 6 or 9, the decimals `Gpst` keeps |
| GeoTimeAsWritten.GpstUnboundAtCoarseResolution | geotools/time/time.py:237-255 | at a resolution of 1 s or coarser, `GPST` as written has no `decimals`, while the corrected reading answers with 0 decimals and no sub-second part |
| GeoTimeAsWritten.GpstCoarseExample | geotools/time/time.py:237-255 | 1.5 s after GPST0 at a resolution of 1 s: as written unbound; corrected, week 0 and second 1 |
| Ellipsoids.Lookup | geotools/ellipsoid/ellipsoid.py:124-127 | a registered name yields its entry; no name or an unknown name yields WGS84 |
| Ellipsoids.LookupExamples | geotools/ellipsoid/ellipsoid.py:51-57 | no name, "Mars" and "wgs84" give WGS84 (6378137, 298.257223563); "sphere" and "Hayford" give their pairs |
| Ellipsoids.RegistryValid | geotools/ellipsoid/ellipsoid.py:51-57 | every entry has a > 0 and 1/f either 0 or above 1 |
| Ellipsoids.RegistryBounds | geotools/ellipsoid/ellipsoid.py:51-57 | every entry has 0 <= f < 1, 0 < b <= a, 0 <= e1 < 1 and e1 <= e2 |
| Ellipsoids.LookupBounds | geotools/ellipsoid/ellipsoid.py:124-127 | whatever name the factory gets, known, unknown or none, its ellipsoid is proper and has 0 <= f < 1, 0 < b <= a, 0 <= e1 < 1 and e1 <= e2 |
| Ellipsoids.Flattening | geotools/ellipsoid/ellipsoid.py:86-94 | f * (1/f) = 1 when 1/f != 0, and f = 0 for 1/f = 0 |
| Ellipsoids.FlatteningBounds | geotools/ellipsoid/ellipsoid.py:86-94 | a proper ellipsoid has 0 <= f < 1, with f = 0 exactly for a sphere |
| Ellipsoids.MinorSemiaxis | geotools/ellipsoid/ellipsoid.py:96-101 | b = a - a f; for a proper ellipsoid 0 < b <= a, with b = a exactly for a sphere |
| Ellipsoids.FirstEccentricitySquared | geotools/ellipsoid/ellipsoid.py:103-109 | 1 - e1 = (1 - f)^2; for a proper ellipsoid 0 <= e1 < 1, with e1 = 0 exactly for a sphere |
| Ellipsoids.MinorFromFirstEccentricity | geotools/ellipsoid/ellipsoid.py:96-109 | b^2 = a^2 (1 - e1) |
| Ellipsoids.SecondEccentricitySquared | geotools/ellipsoid/ellipsoid.py:111-118 | e2 (1 - e1) = e1; for a proper ellipsoid e1 <= e2, with e2 = 0 exactly for a sphere |
| Ellipsoids.MajorFromSecondEccentricity | geotools/ellipsoid/ellipsoid.py:96-118 | a^2 = b^2 (1 + e2) |
| Ellipsoids.SphereIsRound | geotools/ellipsoid/ellipsoid.py:57 | the sphere has f = 0, b = a = 6 370 997 m, and e1 = e2 = 0 |
| Ellipsoids.FlatteningAsWritten | geotools/ellipsoid/ellipsoid.py:89-94 | numpy's 1/(1/f) agrees with the flattening whenever 1/f != 0 |
| Ellipsoids.SphereAsWritten | geotools/ellipsoid/ellipsoid.py:86-109 | evaluated by numpy, the sphere's flattening is +inf, its minor semi-axis -inf and its e1 not-a-number |
| Ellipsoids.MinorSemiaxisAsWritten | geotools/ellipsoid/ellipsoid.py:96-101 | numpy's a * (1 - f) agrees with the minor semi-axis whenever 1/f != 0 |
| Ellipsoids.FirstEccentricitySquaredAsWritten | geotools/ellipsoid/ellipsoid.py:103-109 | numpy's 2f - f^2 agrees with e1 whenever 1/f != 0 |
| EllipsoidCache.NewCore | geotools/ellipsoid/ellipsoid.py:64-74 | a new object keeps the two defining values and starts with every memo slot empty, so it is consistent |
| EllipsoidCache.NewEllipsoid | geotools/ellipsoid/ellipsoid.py:124-127 | the factory builds a consistent object with the registry entry of the name, or WGS84's |
| EllipsoidCache.MajorSemiaxisOf | geotools/ellipsoid/ellipsoid.py:81-84 | `major_semiaxis` returns a and changes nothing |
| EllipsoidCache.CachedFlattening | geotools/ellipsoid/ellipsoid.py:86-94 | on a consistent object the read is f; the slot then holds it, the other slots and the defining values are untouched, and a nonzero slot is not recomputed |
| EllipsoidCache.CachedMinorSemiaxis | geotools/ellipsoid/ellipsoid.py:96-101 | on a consistent object the read is b, and the object stays consistent with its defining values unchanged |
| EllipsoidCache.CachedFirstEccentricitySquared | geotools/ellipsoid/ellipsoid.py:103-109 | on a consistent object the read is e1, and the object stays consistent with its defining values unchanged |
| EllipsoidCache.CachedSecondEccentricitySquared | geotools/ellipsoid/ellipsoid.py:111-118 | on a consistent object the read is e2, and the object stays consistent with its defining values unchanged |
| EllipsoidCache.AskOne | geotools/ellipsoid/ellipsoid.py:81-118 | each accessor returns the quantity the defining values determine, and the object stays consistent |
| EllipsoidCache.Ask | geotools/ellipsoid/ellipsoid.py:81-118 | in any run of reads on one object, each answer is the derived quantity whatever the memo holds; the defining values never change |
| EllipsoidCache.ReadTwice | geotools/ellipsoid/ellipsoid.py:86-118 | reading the same quantity twice in a row gives the same value both times, zero-valued ones included |
| EllipsoidCache.MemoIsInvisible | geotools/ellipsoid/ellipsoid.py:81-118 | two consistent objects with the same defining values give the same answers to every run of reads |

## Left out

- `geotools/calculations/calculations.py`: radii, meridian arcs and geodetic/Cartesian conversion are floating-point trigonometry, with no exact statement to prove.
- numpy's float rounding is not modelled, and values are exact integers and rationals instead:
  - `np.around` to 0/3/6/9 decimals in `GPST`;
  - the 8-decimal rounding in `to_fYear`;
  - float `modf` in the constructors, which is modelled on exact reals.
- `as_string` and `to_ISO` are numpy's string formatting. `year` is derived arithmetically from the instant, not by parsing the first four characters of the ISO string.
- numpy's `datetime64[ns]` holds a signed 64-bit count of nanoseconds, from 1677-09-21 to 2262-04-11. The model's instant is an unbounded integer, and it does not model numpy's overflow outside that range. `At`, `GpsRoundTrip` (every week w), and the `FYear*` and `InYear*` lemmas (every year y >= 0) hold exactly only for instants inside it.
- GeoTimeConstructors.FromFYear: formatting the year into an ISO string and parsing it back is not modelled. Its contract promises nothing about the instant for fy < 0. There `np.modf` gives a negative fraction, which moves back from 1 January, and `fYear` formats the negative year as a string whose parsing by numpy the model does not settle.
- `_set_resolution` (time.py:115-129) is reached by no working path: `CoreGeoTime.__init__` never sets `time_unit` and never calls it, because time.py:104-113 are commented out, and its only caller is the `GeoTime` subclass, which cannot run. `FromTimestamp` follows the rule of the constructor's documentation (time.py:77-81) instead.
- The constructors as written store `np.timedelta64(None)`, a NaT, as the resolution (time.py:85). For such an object the comparison with NaT at time.py:237 is false, so `GPST` leaves `decimals` unbound and raises `UnboundLocalError` (see "## Findings"). `FromGpst` and `FromFYear` use the documented rule instead, which gives an ns timestamp ns resolution.
- `_round_time` and the `GeoTime` subclass are not modelled. They reference undefined names and cannot run.
- Debug `print`s in `fYear`, and logging setup, are not modelled.
- Parsing of arbitrary timestamp inputs is numpy's parser. `FromTimestamp` takes the parsed instant and its native unit as parameters.
- `Unit` has D, h, m, s, ms, us and ns only. A timestamp whose own unit is Y, M or W (`np.datetime64('2020')` has unit Y), or finer than ns, cannot be given to `FromTimestamp`, although with no resolution the rule of time.py:77-81 would take that unit.
- A resolution is a single unit. numpy's multiplied units, such as a resolution of 10 ms, are not modelled.
- Leap seconds and UTC/GPS offsets are not modelled; the code does not handle them either, and its time scale is uniform.
- The time engine's memo slots are not modelled (see the introduction).
- EllipsoidCache.CachedSecondEccentricitySquared: requires a consistent object and e1 != 1. Where e1 = 1 (1/f = 1), numpy would return an infinity; that value is not modelled.
- Ellipsoids.SecondEccentricitySquared: requires e1 != 1 for the same reason.
- The `Float` datatype has the infinities and not-a-number, but not the rounding or overflow of finite float64 values.
- `setup.py`, `geotools/_version.py`, `geotools/geotools.py` and `geotools/angle/__init__.py` are packaging, file I/O and import glue, and are not modelled.

## Findings

| source | as written | input that shows it | evidently intended | confidence | as-written member | corrected member |
|---|---|---|---|---|---|---|
| geotools/time/time.py:257-261 | `to_fYear` divides the 1-based `days_of_year` by the year's length, so 1 January already reads year + 1/365 and 31 December reads year + 1 | `fYear(2020.5)` (day 183 of 366) reads back as 2020 + 184/366 instead of 2020.5 | count completed days (day of year - 1), so that `to_fYear` inverts `fYear` up to the day boundary | high (not executed) | GeoTimeConstructors.FYearRoundTripMissesByADay | GeoTimeConstructors.FYearRoundTrip |
| geotools/time/time.py:268-283 | the property `J2000` (time.py:268-269) rebinds the class attribute `J2000` (time.py:67), so `self.J2000` at time.py:271 and 278 reads the property itself | any object whose `t` holds its instant (for example after `obj.t = obj.timestamp`): `J2000`, `to_MJD` and `to_JD` recurse until Python's recursion limit | `self.J2000` reads the epoch 2000-01-01T12:00, the fraction at time.py:273 takes the resolution's unit, and time.py:283 adds `JD_MJD0` in days, giving the offset, MJD and JD of the instant | high (not executed) | GeoTimeAsWritten.J2000QueriesFail | GeoTime.SinceJ2000 |
| geotools/time/time.py:237-255 | `decimals` is bound only inside the branch for a resolution finer than 1 s, and the rounding at time.py:254-255 reads it on every path | any instant at a resolution of 1 s, 1.5 s after GPST0 for one: `UnboundLocalError` where week 0, second 1 is meant | 0 decimals for a resolution of 1 s or coarser: whole seconds of week | high (not executed) | GeoTimeAsWritten.GpstUnboundAtCoarseResolution | GeoTime.Gpst |
| geotools/ellipsoid/ellipsoid.py:89-93 | `1. / self._inverse_flattening` on a `numpy.float64` zero yields +inf without raising `ZeroDivisionError`, so the sphere branch is never taken | the registry's `sphere` (6370997, 0): f = +inf, b = -inf, e1 = not-a-number | f = 0 for 1/f = 0, so that b = a and e1 = e2 = 0 | high (not executed) | Ellipsoids.SphereAsWritten | Ellipsoids.SphereIsRound |

The as-written half of the first finding is `GeoTime.ToFYear`, together with `GeoTimeConstructors.FYearThenToFYear`. The corrected reading is `GeoTime.ToFYearFromDayZero`: it is proved to invert `fYear` to within one day (`FYearRoundTrip`), and exactly on 2020.5 (`FYearRoundTripExample`). For the `J2000` finding, the rest of the model uses the epoch: `GeoTime.SinceJ2000`, `GeoTime.ToMjd` and `GeoTime.ToJd`. `GeoTimeAsWritten` proves that they are what the code computes once the name keeps the epoch and time.py:273 and 283 are completed. As written, even with the epoch kept, `J2000` and `to_JD` raise `TypeError`. For the `GPST` finding, `GeoTimeAsWritten.GpstDecimalsAsWritten` binds `decimals` as the code does, and `GpstCoarseExample` shows the instance; the rest of the model uses `GeoTime.Decimals`, which gives 0, and `GeoTime.Gpst`, whose nanoseconds are then 0. For the sphere finding, the rest of the model uses the corrected `Ellipsoids.Flattening`, and `Ellipsoids.FlatteningAsWritten` is numpy's evaluation.

=== FILE: arith.dfy ===
/** Integer and rational helpers: floor multiples, and the truncations numpy applies to floats. */
module Arith {

  /** `x / n * n` is the largest multiple of `n` not above `x`. */
  lemma FloorMultiple(x: int, n: int)
    requires n > 0
    ensures x / n * n <= x < x / n * n + n
    ensures (x / n * n) % n == 0
  {
    var q := x / n;
    assert x == n * q + x % n;
    MulMod(q, n);
  }

  /** A multiple of `n` divides back exactly. */
  lemma MulMod(q: int, n: int)
    requires n > 0
    ensures (q * n) % n == 0 && (q * n) / n == q
  {
    var a := q * n;
    var q', r' := a / n, a % n;
    assert a == n * q' + r';
    assert n * (q - q') == r';
    MulSign(n, q - q');
  }

  /** A positive `n` times a nonzero integer is at least `n` away from zero. */
  lemma MulSign(n: int, k: int)
    requires n > 0
    ensures k >= 1 ==> n * k >= n
    ensures k <= -1 ==> n * k <= -n
  {
    if k >= 1 {
      assert n * k == n + n * (k - 1);
    } else if k <= -1 {
      assert n * k == -n + n * (k + 1);
    }
  }

  /** A multiple of `n` that is not above `x` is not above `x`'s floor multiple either. */
  lemma MultipleBelow(z: int, x: int, n: int)
    requires n > 0 && z % n == 0 && z <= x
    ensures z <= x / n * n
    ensures z > x - n ==> z == x / n * n
  {
    var q := z / n;
    assert z == n * q;
    FloorMultiple(x, n);
    if q > x / n {
      MulSign(n, q - x / n);
    }
    if z > x - n && q < x / n {
      MulSign(n, x / n - q);
    }
  }

  /** Division of `q * n + r` by `n`, for a remainder 0 <= r < n, gives back `q` and `r`. */
  lemma DivOfMultiplePlus(q: int, n: int, r: int)
    requires n > 0 && 0 <= r < n
    ensures (q * n + r) / n == q && (q * n + r) % n == r
  {
    var a := q * n + r;
    var q', r' := a / n, a % n;
    assert a == n * q' + r';
    assert n * (q - q') == r' - r;
    if q - q' >= 1 || q - q' <= -1 {
      MulSign(n, q - q');
    }
  }

  /** Adding a multiple of `n` leaves the remainder by `n` alone. */
  lemma ModOfShift(x: int, q: int, n: int)
    requires n > 0
    ensures (x + q * n) % n == x % n
  {
    assert x == x / n * n + x % n;
    assert x + q * n == (x / n + q) * n + x % n;
    DivOfMultiplePlus(x / n + q, n, x % n);
  }

  /** `k / n` as a real: multiplying back by `n` gives `k`, and it is a proper fraction when `k` is in [0, n). */
  lemma Ratio(k: int, n: int)
    requires n > 0
    ensures (k as real / n as real) * n as real == k as real
    ensures 0 <= k < n ==> 0.0 <= k as real / n as real < 1.0
    ensures 0 < k <= n ==> 0.0 < k as real / n as real <= 1.0
  {
  }

  /** Flooring to a multiple of `a`, then of `c` (a multiple of `a`), floors to `c` directly. */
  lemma FloorOfFloor(x: int, a: int, c: int)
    requires a > 0 && c > 0 && c % a == 0
    ensures (x / a * a) / c * c == x / c * c
  {
    var y := x / a * a;
    var z := x / c * c;
    var w := y / c * c;
    var k := c / a;
    assert c == a * k + c % a;
    FloorMultiple(x, a);
    FloorMultiple(x, c);
    FloorMultiple(y, c);
    assert z == ((x / c) * k) * a;
    MulMod((x / c) * k, a);
    MultipleBelow(z, x, a);
    MultipleBelow(w, x, c);
    MultipleBelow(z, y, c);
  }

  /** numpy.int64 of a float: the integer part, dropping the fraction toward zero. */
  function Trunc(x: real): (r: int)
    ensures x >= 0.0 ==> 0 <= r && r as real <= x < r as real + 1.0
    ensures x < 0.0 ==> r <= 0 && r as real - 1.0 < x <= r as real
  {
    if x >= 0.0 then x.Floor else -((-x).Floor)
  }

  /** A proper fraction of a positive whole `n` stays in [0, n). */
  lemma FractionTimes(d: real, n: int)
    requires 0.0 <= d < 1.0 && n > 0
    ensures 0.0 <= d * n as real < n as real
  {
    assert n as real - d * n as real == (1.0 - d) * n as real;
  }

  /** A whole number, read back as an integer. */
  lemma TruncOfWhole(n: int)
    ensures Trunc(n as real) == n
  {
  }

  /** A real of the form `k + f` with a whole `k` and 0 <= f < 1 splits into `f` and `k`. */
  lemma ModfOfWholePlusFraction(k: int, f: real)
    requires k >= 0 && 0.0 <= f < 1.0
    ensures Modf(k as real + f) == Split(f, k)
  {
    assert (k as real + f).Floor == k;
  }

  /** numpy.modf: a real split into a fractional and an integral part, both with the sign of `x`. */
  datatype Split = Split(fraction: real, whole: int)

  function Modf(x: real): (s: Split)
    ensures s.fraction + s.whole as real == x
    ensures x >= 0.0 ==> 0.0 <= s.fraction < 1.0 && s.whole >= 0
    ensures x < 0.0 ==> -1.0 < s.fraction <= 0.0 && s.whole <= 0
  {
    var w := Trunc(x);
    Split(x - w as real, w)
  }
}

=== FILE: calendar.dfy ===
/**
 * The proleptic Gregorian calendar of section 3.2.1 of ISO 8601:2004, counted in
 * days from 1970-01-01. Every year number is allowed (year 0 is 1 BC); all division
 * here is floor division, so the arithmetic is the same before and after 1970.
 */
module Calendar {
  import opened Arith

  /**
   * Remainder of a division that truncates toward zero, as numpy.fmod computes it:
   * `a` less a multiple of `m`, smaller than `m` in size and with the sign of `a`.
   */
  function Fmod(a: int, m: int): (r: int)
    requires m > 0
    ensures -m < r < m
    ensures a >= 0 ==> r >= 0
    ensures a < 0 ==> r <= 0
    ensures (a - r) % m == 0
  {
    if a >= 0 then
      FloorMultiple(a, m);
      a % m
    else
      FloorMultiple(-a, m);
      MulMod(-((-a) / m), m);
      assert a + (-a) % m == -((-a) / m) * m;
      -((-a) % m)
  }

  /**
   * The leap-year test of `CoreGeoTime.is_leap`: no remainder by 4, and either a
   * remainder by 100 or none by 400. The remainders are numpy's truncating ones;
   * the contract restates the rule with floor remainders for every year.
   */
  predicate IsLeap(year: int)
    ensures IsLeap(year) <==> year % 4 == 0 && (year % 100 != 0 || year % 400 == 0)
  {
    FmodZero(year, 4);
    FmodZero(year, 100);
    FmodZero(year, 400);
    var d4 := Fmod(year, 4);
    var d100 := Fmod(year, 100);
    var d400 := Fmod(year, 400);
    d4 == 0 && (d100 != 0 || d400 == 0)
  }

  /** The truncating and the flooring remainder are zero together. */
  lemma FmodZero(a: int, m: int)
    requires m > 0
    ensures Fmod(a, m) == 0 <==> a % m == 0
  {
    if a < 0 {
      var q, r := (-a) / m, (-a) % m;
      assert a == (-q) * m - r;
      if r == 0 {
        DivOfMultiplePlus(-q, m, 0);
      } else {
        assert a == (-q - 1) * m + (m - r);
        DivOfMultiplePlus(-q - 1, m, m - r);
      }
    }
  }

  /** Days from 0001-01-01 to 1970-01-01. */
  const DaysBefore1970: int := 719162

  /**
   * Day number (days since 1970-01-01) of 1 January of `year`: 365 days a year
   * plus one for every leap year before it.
   */
  function YearStart(year: int): int {
    var p := year - 1;
    365 * p + p / 4 - p / 100 + p / 400 - DaysBefore1970
  }

  /** The length of `year`, counted by the leap rule; it is the gap between two New Years. */
  function DaysInYear(year: int): (n: int)
    ensures n == YearStart(year + 1) - YearStart(year)
    ensures n == 365 || n == 366
  {
    FloorStep(year - 1, 4);
    FloorStep(year - 1, 100);
    FloorStep(year - 1, 400);
    if IsLeap(year) then 366 else 365
  }

  /** Stepping `p` up by one raises `p / m` by one exactly when `p + 1` is a multiple of `m`. */
  lemma FloorStep(p: int, m: int)
    requires m == 4 || m == 100 || m == 400
    ensures (p + 1) / m - p / m == if (p + 1) % m == 0 then 1 else 0
  {
    var q, r := p / m, p % m;
    assert p == m * q + r && 0 <= r < m;
    if r + 1 == m {
      assert p + 1 == m * (q + 1);
    } else {
      assert p + 1 == m * q + (r + 1);
    }
  }

  /** New Years never go backwards: later years start at least 365 days per year later. */
  lemma {:induction false} YearStartGrows(a: int, b: int)
    requires a <= b
    ensures YearStart(b) - YearStart(a) >= 365 * (b - a)
    decreases b - a
  {
    if a < b {
      YearStartGrows(a, b - 1);
      assert YearStart(b) - YearStart(b - 1) == DaysInYear(b - 1);
    }
  }

  /** A day number split into its year and its 0-based day within that year. */
  datatype YearDay = YearDay(year: int, day: int)

  /**
   * The year a day number falls in, found by taking off whole 400-year, 100-year,
   * 4-year and 1-year cycles counted from 0001-01-01.
   */
  function YearOfDay(d: int): (r: YearDay)
    ensures YearStart(r.year) + r.day == d
    ensures 0 <= r.day < DaysInYear(r.year)
  {
    var z := d + DaysBefore1970;
    var n400 := z / 146097;
    var r1 := z % 146097;
    var n100 := if r1 / 36524 == 4 then 3 else r1 / 36524;
    var r2 := r1 - 36524 * n100;
    var n4 := r2 / 1461;
    var r3 := r2 % 1461;
    var n1 := if r3 / 365 == 4 then 3 else r3 / 365;
    var year := 400 * n400 + 100 * n100 + 4 * n4 + n1 + 1;
    CycleYearStart(n400, n100, n4, n1);
    CycleDayInYear(n400, n100, r2);
    YearDay(year, r3 - 365 * n1)
  }

  /**
   * Within a century block, the day left after the 4-year and 1-year cycles fits the
   * year those cycles name. Only the last century of a 400-year cycle has a 36 525th day.
   */
  lemma CycleDayInYear(n400: int, n100: int, r2: int)
    requires 0 <= n100 <= 3 && 0 <= r2 <= 36524
    requires r2 == 36524 ==> n100 == 3
    ensures var n4 := r2 / 1461;
            var r3 := r2 % 1461;
            var n1 := if r3 / 365 == 4 then 3 else r3 / 365;
            0 <= n4 <= 24 && 0 <= n1 <= 3
            && 0 <= r3 - 365 * n1 < DaysInYear(400 * n400 + 100 * n100 + 4 * n4 + n1 + 1)
  {
    var n4 := r2 / 1461;
    var r3 := r2 % 1461;
    var n1 := if r3 / 365 == 4 then 3 else r3 / 365;
    var year := 400 * n400 + 100 * n100 + 4 * n4 + n1 + 1;
    assert 0 <= n4 <= 24 && 0 <= n1 <= 3;
    if r3 - 365 * n1 == 365 {
      assert n1 == 3 && r3 == 1460;
      LastYearOfCycleIsLeap(n400, n100, n4);
    }
  }

  /**
   * The fourth year of a 4-year cycle is a leap year, except at the end of a century
   * that does not close a 400-year cycle.
   */
  lemma LastYearOfCycleIsLeap(n400: int, n100: int, n4: int)
    requires 0 <= n100 <= 3 && 0 <= n4 <= 24
    requires n4 == 24 ==> n100 == 3
    ensures IsLeap(400 * n400 + 100 * n100 + 4 * n4 + 4)
  {
    var year := 400 * n400 + 100 * n100 + 4 * n4 + 4;
    MulMod(100 * n400 + 25 * n100 + n4 + 1, 4);
    assert year == (100 * n400 + 25 * n100 + n4 + 1) * 4;
    if n4 == 24 {
      MulMod(n400 + 1, 400);
      assert year == (n400 + 1) * 400;
    } else {
      DivOfMultiplePlus(4 * n400 + n100, 100, 4 * n4 + 4);
      assert year == (4 * n400 + n100) * 100 + (4 * n4 + 4);
    }
  }

  /** The closed form of `YearStart` for a year written in 400/100/4/1-year cycles. */
  lemma CycleYearStart(n400: int, n100: int, n4: int, n1: int)
    requires 0 <= n100 <= 3 && 0 <= n4 <= 24 && 0 <= n1 <= 3
    ensures YearStart(400 * n400 + 100 * n100 + 4 * n4 + n1 + 1)
         == 146097 * n400 + 36524 * n100 + 1461 * n4 + 365 * n1 - DaysBefore1970
  {
    var p := 400 * n400 + 100 * n100 + 4 * n4 + n1;
    assert p / 4 == 100 * n400 + 25 * n100 + n4;
    assert p / 100 == 4 * n400 + n100;
    assert p / 400 == n400;
  }

  /** A day lies in exactly one year: any year whose range holds `d` is `YearOfDay(d).year`. */
  lemma YearOfDayUnique(d: int, year: int)
    requires YearStart(year) <= d < YearStart(year + 1)
    ensures YearOfDay(d) == YearDay(year, d - YearStart(year))
  {
    var r := YearOfDay(d);
    if r.year < year {
      YearStartGrows(r.year + 1, year);
    } else if r.year > year {
      YearStartGrows(year + 1, r.year);
    }
  }

  /** Days in month `m` (1..12) of a year with the given leap flag. */
  function MonthLength(m: int, leap: bool): (n: int)
    requires 1 <= m <= 12
    ensures 28 <= n <= 31
  {
    if m == 2 then (if leap then 29 else 28)
    else if m == 4 || m == 6 || m == 9 || m == 11 then 30
    else 31
  }

  /** Days of a year that come before the first of month `m`: the month lengths before it, summed. */
  function DaysBeforeMonth(m: int, leap: bool): (n: int)
    requires 1 <= m <= 12
    ensures m == 1 ==> n == 0
    ensures m > 1 ==> n == DaysBeforeMonth(m - 1, leap) + MonthLength(m - 1, leap)
    ensures 0 <= n && n + MonthLength(m, leap) <= (if leap then 366 else 365)
    ensures m == 12 ==> n + MonthLength(m, leap) == (if leap then 366 else 365)
  {
    var l := if leap then 1 else 0;
    match m
    case 1 => 0
    case 2 => 31
    case 3 => 59 + l
    case 4 => 90 + l
    case 5 => 120 + l
    case 6 => 151 + l
    case 7 => 181 + l
    case 8 => 212 + l
    case 9 => 243 + l
    case 10 => 273 + l
    case 11 => 304 + l
    case 12 => 334 + l
  }

  /** Day number of the calendar date `year`-`month`-`day`; it lies inside that year. */
  function CivilDay(year: int, month: int, day: int): (d: int)
    requires 1 <= month <= 12 && 1 <= day <= MonthLength(month, IsLeap(year))
    ensures YearStart(year) <= d < YearStart(year + 1)
    ensures YearOfDay(d) == YearDay(year, DaysBeforeMonth(month, IsLeap(year)) + day - 1)
  {
    var d := YearStart(year) + DaysBeforeMonth(month, IsLeap(year)) + day - 1;
    assert YearStart(year + 1) - YearStart(year) == DaysInYear(year);
    YearOfDayUnique(d, year);
    d
  }

  /** The examples of the leap rule: 2000 and 2004 are leap years, 1900 and 2023 are not. */
  lemma LeapExamples()
    ensures IsLeap(2000) && IsLeap(2004)
    ensures !IsLeap(1900) && !IsLeap(2023)
  {
  }
}

=== FILE: constructors.dfy ===
/**
 * The two specialised constructors of `geotools.time`: `GPST(w, s)` from a GPS week
 * and seconds of week, and `fYear(fy)` from a fractional year. Both build the
 * instant at nanosecond resolution out of whole units added one after the other.
 */
module GeoTimeConstructors {
  import opened Wrappers
  import opened Arith
  import opened Calendar
  import opened GeoTime

  /**
   * `GPST(w, s)`: the GPS zero point plus `w` weeks, plus the whole seconds of `s`,
   * plus its fraction in whole nanoseconds (dropped toward zero).
   */
  function FromGpst(w: int, s: real): (g: CoreGeoTime)
    ensures g.t.At? && g.resolution == Nano
    ensures var offset := (g.t.ns - Gpst0 - w * NsPerWeek) as real;
            s >= 0.0 ==> offset <= s * NsPerSecond as real < offset + 1.0
    ensures var offset := (g.t.ns - Gpst0 - w * NsPerWeek) as real;
            s < 0.0 ==> offset - 1.0 < s * NsPerSecond as real <= offset
  {
    var split := Modf(s);
    var t := Gpst0 + w * NsPerWeek + split.whole * NsPerSecond
             + Trunc(split.fraction * NsPerSecond as real);
    CoreGeoTime(At(t), Nano)
  }

  /**
   * Building from week `w` and seconds `seconds + nanos * 10^-9` and reading `GPST`
   * back gives the same week, seconds and nanoseconds.
   */
  lemma GpsRoundTrip(w: int, seconds: int, nanos: int)
    requires 0 <= seconds < SecondsPerWeek && 0 <= nanos < NsPerSecond
    ensures Gpst(FromGpst(w, seconds as real + nanos as real / NsPerSecond as real))
         == Some(GpsTime(w, seconds, nanos))
  {
    var f := nanos as real / NsPerSecond as real;
    var s := seconds as real + f;
    Ratio(nanos, NsPerSecond);
    ModfOfWholePlusFraction(seconds, f);
    TruncOfWhole(nanos);
    var delta := seconds * NsPerSecond + nanos;
    var g := FromGpst(w, s);
    assert g == CoreGeoTime(At(Gpst0 + w * NsPerWeek + delta), Nano);
    GpsFields(w, delta, seconds, nanos);
  }

  /** `Gpst` of the instant `delta` ns into week `w`, at nanosecond resolution. */
  lemma GpsFields(w: int, delta: int, seconds: int, nanos: int)
    requires 0 <= seconds < SecondsPerWeek && 0 <= nanos < NsPerSecond
    requires delta == seconds * NsPerSecond + nanos
    ensures Gpst(CoreGeoTime(At(Gpst0 + w * NsPerWeek + delta), Nano)) == Some(GpsTime(w, seconds, nanos))
  {
    var ns := Gpst0 + w * NsPerWeek + delta;
    var g := CoreGeoTime(At(ns), Nano);
    DivOfMultiplePlus(w, NsPerWeek, delta);
    DivOfMultiplePlus(seconds, NsPerSecond, nanos);
    assert ns == nanos + (315_964_800 + w * SecondsPerWeek + seconds) * NsPerSecond;
    ModOfShift(nanos, 315_964_800 + w * SecondsPerWeek + seconds, NsPerSecond);
    assert FractionOfSeconds(g).value == nanos;
    assert KeptFraction(nanos, Nano) == nanos;
  }

  /** Week 2190 and 432 000.5 seconds read back as week 2190 and 432 000.5 seconds. */
  lemma GpsExample()
    ensures Gpst(FromGpst(2190, 432000.5)) == Some(GpsTime(2190, 432000, 500_000_000))
    ensures Gpst(FromGpst(2190, 432000.5)).value.SecondsOfWeek() == 432000.5
  {
    assert 432000.5 == 432000 as real + 500_000_000 as real / NsPerSecond as real;
    GpsRoundTrip(2190, 432000, 500_000_000);
  }

  /**
   * `fYear(fy)`: 1 January of the integer part of `fy`, plus the fractional part of
   * the year in days. The source asks `is_leap` of the instant 1 January; that
   * instant's year is the integer part itself (`NewYearIsDayOne`), so the leap test
   * is applied to it directly.
   */
  function FromFYear(fy: real): (g: CoreGeoTime)
    ensures g.t.At? && g.resolution == Nano
    ensures var yd := Modf(fy);
            fy >= 0.0 ==> WithinDays(g.t.ns, yd.whole, DaysOf(yd.fraction, yd.whole))
  {
    var yd := Modf(fy);
    if fy >= 0.0 then
      InYearBounds(yd.whole, yd.fraction);
      InYear(yd.whole, yd.fraction)
    else InYear(yd.whole, yd.fraction)
  }

  /** The instant a fraction `d` of year `y` after its 1 January, as `fYear` adds it up. */
  function InYear(y: int, d: real): (g: CoreGeoTime)
    ensures g.t.At? && g.resolution == Nano
  {
    var days := if IsLeap(y) then DaysToNs(d * 366.0) else DaysToNs(d * 365.0);
    CoreGeoTime(At(YearStart(y) * NsPerDay + days), Nano)
  }

  /**
   * A non-negative number of days `x` in nanoseconds, added up as `fYear` does: whole
   * days, then whole seconds of the remaining day fraction, then whole nanoseconds of
   * the remaining second fraction. The sum is within 1 ns below `x` days.
   */
  function DaysToNs(x: real): (ns: int)
    ensures x >= 0.0 ==> 0 <= ns && ns as real <= x * NsPerDay as real < ns as real + 1.0
  {
    var days := Modf(x);
    var seconds := Modf(days.fraction * SecondsPerDay as real);
    var nanos := Trunc(seconds.fraction * NsPerSecond as real);
    days.whole * NsPerDay + seconds.whole * NsPerSecond + nanos
  }

  /** `fYear(y + d)`, for a whole y >= 0 and 0 <= d < 1, is the fraction d of year y. */
  lemma FromFYearSplit(y: int, d: real)
    requires y >= 0 && 0.0 <= d < 1.0
    ensures FromFYear(y as real + d) == InYear(y, d)
  {
    ModfOfWholePlusFraction(y, d);
  }

  /** The number of days a fraction `d` of year `y` stands for. */
  function DaysOf(d: real, y: int): real {
    d * DaysInYear(y) as real
  }

  /**
   * Instant `ns` lies in year `y`, at most 1 ns below `x` days after its 1 January.
   */
  predicate WithinDays(ns: int, y: int, x: real) {
    var offset := ns - YearStart(y) * NsPerDay;
    && 0 <= offset < DaysInYear(y) * NsPerDay
    && offset as real <= x * NsPerDay as real < offset as real + 1.0
  }

  /**
   * A fraction 0 <= d < 1 of year y lands in year y, at most 1 ns below d times the
   * year's length after 1 January of y.
   */
  lemma InYearBounds(y: int, d: real)
    requires 0.0 <= d < 1.0
    ensures WithinDays(InYear(y, d).t.ns, y, DaysOf(d, y))
  {
    InYearOffset(y, d);
    FractionTimes(d, DaysInYear(y));
    DaysBelow(DaysOf(d, y), DaysInYear(y));
  }

  /** The fraction `d` of year `y` lies `DaysToNs` of its days after 1 January of `y`. */
  lemma InYearOffset(y: int, d: real)
    ensures InYear(y, d).t.ns == YearStart(y) * NsPerDay + DaysToNs(DaysOf(d, y))
  {
    if IsLeap(y) {
      assert DaysOf(d, y) == d * 366.0;
    } else {
      assert DaysOf(d, y) == d * 365.0;
    }
  }

  /** Fewer than `n` days, added up in nanoseconds, stay below `n` whole days. */
  lemma DaysBelow(x: real, n: int)
    requires 0.0 <= x < n as real
    ensures var ns := DaysToNs(x);
            && 0 <= ns < n * NsPerDay
            && ns as real <= x * NsPerDay as real < ns as real + 1.0
  {
    assert x * NsPerDay as real < (n * NsPerDay) as real;
  }

  /** A fraction 0 <= d < 1 of year y falls in year y, on day floor(d * days in y) + 1. */
  lemma InYearYearAndDay(y: int, d: real)
    requires 0.0 <= d < 1.0
    ensures Year(InYear(y, d)) == Some(y)
    ensures DaysOfYear(InYear(y, d)) == Some(DaysOf(d, y).Floor + 1)
  {
    InYearBounds(y, d);
    YearAndDayWithin(InYear(y, d), y, DaysOf(d, y));
  }

  /** `fYear(y + d)` falls in year y, on day floor(d * days in y) + 1. */
  lemma FYearYearAndDay(y: int, d: real)
    requires y >= 0 && 0.0 <= d < 1.0
    ensures Year(FromFYear(y as real + d)) == Some(y)
    ensures DaysOfYear(FromFYear(y as real + d)) == Some(DaysOf(d, y).Floor + 1)
  {
    FromFYearSplit(y, d);
    InYearYearAndDay(y, d);
  }

  /**
   * An instant `offset` ns into year `y`, within 1 ns below `x` days, reads year `y`
   * and day floor(x) + 1.
   */
  lemma YearAndDayWithin(g: CoreGeoTime, y: int, x: real)
    requires g.t.At? && WithinDays(g.t.ns, y, x)
    ensures Year(g) == Some(y)
    ensures DaysOfYear(g) == Some(x.Floor + 1)
  {
    var ns := g.t.ns;
    var offset := ns - YearStart(y) * NsPerDay;
    assert g == CoreGeoTime(At(ns), g.resolution);
    YearOfInstant(ns, y, g.resolution);
    DayOfOffset(offset, x);
    assert DayNumber(ns) == YearStart(y) + offset / NsPerDay;
  }

  /**
   * An offset within 1 ns below `x` days lies in day floor(x): whole days are
   * multiples of a day, so the last nanosecond cannot cross one.
   */
  lemma DayOfOffset(offset: int, x: real)
    requires 0 <= offset
    requires offset as real <= x * NsPerDay as real < offset as real + 1.0
    ensures offset / NsPerDay == x.Floor
  {
    var k := offset / NsPerDay;
    assert k * NsPerDay <= offset < (k + 1) * NsPerDay;
    assert (k * NsPerDay) as real <= x * NsPerDay as real;
    assert x * NsPerDay as real < ((k + 1) * NsPerDay) as real;
    assert k as real <= x < (k + 1) as real;
  }

  /** Both fractional-year readings of an instant whose year and day of year are known. */
  lemma FractionalYearOf(g: CoreGeoTime, y: int, doy: int)
    ensures Year(g) == Some(y) && DaysOfYear(g) == Some(doy) ==>
              ToFYear(g) == Some(y as real + doy as real / DaysInYear(y) as real)
    ensures Year(g) == Some(y) && DaysOfYear(g) == Some(doy) ==>
              ToFYearFromDayZero(g) == Some(y as real + (doy - 1) as real / DaysInYear(y) as real)
  {
    if Year(g) == Some(y) && DaysOfYear(g) == Some(doy) {
      assert IsLeapYear(g) == Some(IsLeap(y));
    }
  }

  /** Both fractional-year readings of the fraction `d` of year `y`. */
  lemma InYearReadings(y: int, d: real)
    requires 0.0 <= d < 1.0
    ensures ToFYear(InYear(y, d))
         == Some(y as real + (DaysOf(d, y).Floor + 1) as real / DaysInYear(y) as real)
    ensures ToFYearFromDayZero(InYear(y, d))
         == Some(y as real + DaysOf(d, y).Floor as real / DaysInYear(y) as real)
  {
    InYearYearAndDay(y, d);
    FractionalYearOf(InYear(y, d), y, DaysOf(d, y).Floor + 1);
  }

  /**
   * As written, `to_fYear` after `fYear(y + d)` reads the year plus the 1-based day
   * over the year's length: one day more than the days `d` stood for.
   */
  lemma FYearThenToFYear(y: int, d: real)
    requires y >= 0 && 0.0 <= d < 1.0
    ensures ToFYear(FromFYear(y as real + d))
         == Some(y as real + (DaysOf(d, y).Floor + 1) as real / DaysInYear(y) as real)
  {
    FromFYearSplit(y, d);
    InYearReadings(y, d);
  }

  /**
   * 2020.5 (day 183 of the 366 of 2020) comes back as 2020 + 184/366, not 2020.5.
   * The value enters as a parameter fixed by the precondition rather than as a literal,
   * which keeps the verifier from unfolding the whole computation on the constant.
   */
  lemma FYearRoundTripMissesByADay(fy: real)
    requires fy == 2020.5
    ensures ToFYear(FromFYear(fy)) == Some(2020.0 + 184.0 / 366.0)
    ensures ToFYear(FromFYear(fy)) != Some(fy)
  {
    var y, d := 2020, 0.5;
    FYearThenToFYear(y, d);
    MidYear2020();
  }

  /**
   * Half of 2020 is 183 whole days of its 366: read back from day 0 that is 2020.5,
   * read back from day 1 it is 2020 + 184/366.
   */
  lemma MidYear2020()
    ensures DaysInYear(2020) == 366 && DaysOf(0.5, 2020).Floor == 183
    ensures 2020 as real + DaysOf(0.5, 2020).Floor as real / DaysInYear(2020) as real == 2020.5
    ensures 2020 as real + (DaysOf(0.5, 2020).Floor + 1) as real / DaysInYear(2020) as real
         == 2020.0 + 184.0 / 366.0
  {
    assert IsLeap(2020);
    assert DaysOf(0.5, 2020) == 183.0;
  }

  /**
   * Counting days from 0, the fractional year read back after `fYear(y + d)` is
   * y + d cut down to whole days: at most y + d, and less than one day's share below it.
   */
  lemma FYearRoundTrip(y: int, d: real)
    requires y >= 0 && 0.0 <= d < 1.0
    ensures var r := ToFYearFromDayZero(FromFYear(y as real + d)).value;
            r <= y as real + d < r + 1.0 / DaysInYear(y) as real
  {
    FYearThenToFYearFromDayZero(y, d);
    WholeDaysOf(y, d);
  }

  /** Counting days from 0, `to_fYear` after `fYear(y + d)` reads y plus the whole days of `d`. */
  lemma FYearThenToFYearFromDayZero(y: int, d: real)
    requires y >= 0 && 0.0 <= d < 1.0
    ensures ToFYearFromDayZero(FromFYear(y as real + d))
         == Some(y as real + DaysOf(d, y).Floor as real / DaysInYear(y) as real)
  {
    FromFYearSplit(y, d);
    InYearReadings(y, d);
  }

  /** y plus the whole days of the fraction `d` of year y is at most y + d, and within a day of it. */
  lemma WholeDaysOf(y: int, d: real)
    ensures var r := y as real + DaysOf(d, y).Floor as real / DaysInYear(y) as real;
            r <= y as real + d < r + 1.0 / DaysInYear(y) as real
  {
    WholeShares(d, DaysInYear(y));
  }

  /** Cutting `d` down to whole `n`ths: floor(d * n) / n is at most `d`, and within 1/n of it. */
  lemma WholeShares(d: real, n: int)
    requires n > 0
    ensures var k := (d * n as real).Floor;
            k as real / n as real <= d < k as real / n as real + 1.0 / n as real
  {
    var k := (d * n as real).Floor;
    var nr := n as real;
    assert k as real <= d * nr < k as real + 1.0;
    assert (k as real / nr) * nr == k as real;
    assert (k as real / nr + 1.0 / nr) * nr == k as real + 1.0;
  }

  /** 2020.5 now comes back as exactly 2020.5 (a parameter fixed by the precondition, as above). */
  lemma FYearRoundTripExample(fy: real)
    requires fy == 2020.5
    ensures ToFYearFromDayZero(FromFYear(fy)) == Some(fy)
  {
    var y, d := 2020, 0.5;
    FYearThenToFYearFromDayZero(y, d);
    MidYear2020();
  }
}

=== FILE: ellipsoid.dfy ===
/**
 * The reference ellipsoids of `geotools.ellipsoid`: a fixed registry of named
 * (major semi-axis, inverse flattening) pairs, a factory that falls back to WGS84,
 * and the four quantities derived from the two defining values: flattening f,
 * minor semi-axis b, first eccentricity squared e1 and second eccentricity squared
 * e2. Values are exact reals; the WGS84 pair is the defining one of NIMA TR8350.2,
 * Table 3.1.
 */
module Ellipsoids {
  import opened Wrappers

  /** The two defining values: major semi-axis a (metres) and inverse flattening 1/f (0 for a sphere). */
  datatype Ellipsoid = Ellipsoid(majorSemiaxis: real, inverseFlattening: real)

  const Wgs84: Ellipsoid := Ellipsoid(6378137.0, 298.257223563)

  /** `ELLIPSOIDS`: the registry of named ellipsoids. */
  const Registry: map<string, Ellipsoid> := map[
    "WGS84" := Wgs84,
    "PZ90" := Ellipsoid(6378136.0, 298.257839303),
    "GRS80" := Ellipsoid(6378137.0, 298.257222101),
    "Bessel" := Ellipsoid(6377397.155, 299.1528128),
    "Hayford" := Ellipsoid(6378388.0, 297.0),
    "WGS72" := Ellipsoid(6378135.0, 298.26),
    "sphere" := Ellipsoid(6370997.0, 0.0)
  ]

  /**
   * `Ellipsoid(name)`: the registry entry of `name`, or WGS84's when there is no
   * name or the name is not in the registry.
   */
  function Lookup(name: Option<string>): (e: Ellipsoid)
    ensures name.Some? && name.value in Registry ==> e == Registry[name.value]
    ensures name.None? || name.value !in Registry ==> e == Wgs84
  {
    match name
    case Some(n) => if n in Registry then Registry[n] else Wgs84
    case None => Wgs84
  }

  /** The fallback and a registry entry, by name. */
  lemma LookupExamples()
    ensures Lookup(None) == Wgs84
    ensures Lookup(Some("Mars")) == Wgs84
    ensures Lookup(Some("wgs84")) == Wgs84
    ensures Lookup(Some("sphere")) == Ellipsoid(6370997.0, 0.0)
    ensures Lookup(Some("Hayford")) == Ellipsoid(6378388.0, 297.0)
  {
    assert "Mars" !in Registry;
    assert "wgs84" !in Registry;
  }

  /**
   * A proper ellipsoid: a positive major semi-axis, and either a sphere (1/f = 0) or
   * a flattening strictly between 0 and 1.
   */
  predicate Valid(e: Ellipsoid) {
    e.majorSemiaxis > 0.0 && (e.inverseFlattening == 0.0 || e.inverseFlattening > 1.0)
  }

  /** Every registry entry is a proper ellipsoid. */
  lemma RegistryValid()
    ensures forall name :: name in Registry ==> Valid(Registry[name])
  {
    forall name | name in Registry
      ensures Valid(Registry[name])
    {
      assert name in {"WGS84", "PZ90", "GRS80", "Bessel", "Hayford", "WGS72", "sphere"};
    }
  }

  /**
   * `flattening`: the reciprocal of the inverse flattening, or 0 for a sphere, where
   * the division by zero is caught.
   */
  function Flattening(e: Ellipsoid): (f: real)
    ensures e.inverseFlattening == 0.0 ==> f == 0.0
    ensures e.inverseFlattening != 0.0 ==> f * e.inverseFlattening == 1.0
  {
    if e.inverseFlattening == 0.0 then 0.0 else 1.0 / e.inverseFlattening
  }

  /** A proper ellipsoid has 0 <= f < 1, and f = 0 exactly for a sphere. */
  lemma FlatteningBounds(e: Ellipsoid)
    requires Valid(e)
    ensures 0.0 <= Flattening(e) < 1.0
    ensures Flattening(e) == 0.0 <==> e.inverseFlattening == 0.0
  {
    var f := Flattening(e);
    if e.inverseFlattening != 0.0 {
      assert f * e.inverseFlattening == 1.0;
      assert f > 0.0;
      assert f < 1.0 by {
        assert f * e.inverseFlattening > f * 1.0;
      }
    }
  }

  /** `minor_semiaxis`: b = a (1 - f); for a proper ellipsoid 0 < b <= a, with b = a exactly for a sphere. */
  function MinorSemiaxis(e: Ellipsoid): (b: real)
    ensures b == e.majorSemiaxis - e.majorSemiaxis * Flattening(e)
    ensures Valid(e) ==> 0.0 < b <= e.majorSemiaxis
    ensures Valid(e) ==> (b == e.majorSemiaxis <==> e.inverseFlattening == 0.0)
  {
    var a, f := e.majorSemiaxis, Flattening(e);
    var b := a * (1.0 - f);
    if Valid(e) then
      FlatteningBounds(e);
      ScaledDown(a, f, b);
      b
    else b
  }

  /** Taking a fraction 0 <= f < 1 off a positive `a` leaves a positive part, all of `a` only for f = 0. */
  lemma ScaledDown(a: real, f: real, b: real)
    requires a > 0.0 && 0.0 <= f < 1.0 && b == a * (1.0 - f)
    ensures 0.0 < b <= a
    ensures b == a <==> f == 0.0
  {
    MulPos(a, 1.0 - f);
    assert b == a - a * f;
    if f > 0.0 {
      MulPos(a, f);
    }
  }

  /** A product of two positive reals is positive. */
  lemma MulPos(x: real, y: real)
    requires x > 0.0 && y > 0.0
    ensures x * y > 0.0
  {
  }

  /** A product `p` of two positive reals is positive. */
  lemma ProductPositive(x: real, y: real, p: real)
    requires x > 0.0 && y > 0.0 && p == x * y
    ensures p > 0.0
  {
    MulPos(x, y);
  }

  /** A product of two non-negative reals is non-negative. */
  lemma MulNonNeg(x: real, y: real)
    requires x >= 0.0 && y >= 0.0
    ensures x * y >= 0.0
  {
    if x > 0.0 && y > 0.0 {
      MulPos(x, y);
    }
  }

  /**
   * `first_eccentricity_squared`: e1 = 2f - f^2, which is 1 - (1 - f)^2; for a proper
   * ellipsoid 0 <= e1 < 1, with e1 = 0 exactly for a sphere.
   */
  function FirstEccentricitySquared(e: Ellipsoid): (e1: real)
    ensures 1.0 - e1 == (1.0 - Flattening(e)) * (1.0 - Flattening(e))
    ensures Valid(e) ==> 0.0 <= e1 < 1.0
    ensures Valid(e) ==> (e1 == 0.0 <==> e.inverseFlattening == 0.0)
  {
    var f := Flattening(e);
    var e1 := 2.0 * f - f * f;
    if Valid(e) then
      FlatteningBounds(e);
      EccentricityOf(f, e1);
      e1
    else e1
  }

  /** For 0 <= f < 1, e1 = 2f - f^2 lies in [0, 1) and is 0 only for f = 0. */
  lemma EccentricityOf(f: real, e1: real)
    requires 0.0 <= f < 1.0 && e1 == 2.0 * f - f * f
    ensures 0.0 <= e1 < 1.0
    ensures e1 == 0.0 <==> f == 0.0
  {
    EccentricityFactors(f, e1);
    ProductPositive(1.0 - f, 1.0 - f, 1.0 - e1);
    if f > 0.0 {
      ProductPositive(f, 2.0 - f, e1);
    }
  }

  /** 2f - f^2 factored two ways: as f (2 - f), and as 1 - (1 - f)^2. */
  lemma EccentricityFactors(f: real, e1: real)
    requires e1 == 2.0 * f - f * f
    ensures e1 == f * (2.0 - f)
    ensures 1.0 - e1 == (1.0 - f) * (1.0 - f)
  {
  }

  /** b^2 = a^2 (1 - e1): the minor semi-axis from the first eccentricity. */
  lemma MinorFromFirstEccentricity(e: Ellipsoid)
    ensures MinorSemiaxis(e) * MinorSemiaxis(e)
         == e.majorSemiaxis * e.majorSemiaxis * (1.0 - FirstEccentricitySquared(e))
  {
    var a, f := e.majorSemiaxis, Flattening(e);
    var b := MinorSemiaxis(e);
    assert b == a * (1.0 - f);
    assert 1.0 - FirstEccentricitySquared(e) == (1.0 - f) * (1.0 - f);
    assert b * b == (a * a) * ((1.0 - f) * (1.0 - f));
  }

  /**
   * `second_eccentricity_squared`: e2 = e1 / (1 - e1), defined when e1 != 1. For a
   * proper ellipsoid e1 <= e2, with e2 = 0 exactly for a sphere.
   */
  function SecondEccentricitySquared(e: Ellipsoid): (e2: real)
    requires FirstEccentricitySquared(e) != 1.0
    ensures e2 * (1.0 - FirstEccentricitySquared(e)) == FirstEccentricitySquared(e)
    ensures Valid(e) ==> 0.0 <= FirstEccentricitySquared(e) <= e2
    ensures Valid(e) ==> (e2 == 0.0 <==> e.inverseFlattening == 0.0)
  {
    var e1 := FirstEccentricitySquared(e);
    var e2 := e1 / (1.0 - e1);
    if Valid(e) then
      AtLeastItself(e1, 1.0 - e1, e2);
      e2
    else e2
  }

  /** Dividing a non-negative `x` by some 0 < d <= 1 does not make it smaller, and keeps it 0 only at 0. */
  lemma AtLeastItself(x: real, d: real, q: real)
    requires 0.0 <= x && 0.0 < d <= 1.0 && q == x / d
    ensures x <= q
    ensures q == 0.0 <==> x == 0.0
  {
    assert q * d == x;
    MulNonNeg(x, 1.0 - d);
    assert x * (1.0 - d) == x - x * d;
    if q < x {
      MulPos(x - q, d);
      assert false;
    }
  }

  /** a^2 = b^2 (1 + e2): the major semi-axis from the minor one and the second eccentricity. */
  lemma MajorFromSecondEccentricity(e: Ellipsoid)
    requires FirstEccentricitySquared(e) != 1.0
    ensures e.majorSemiaxis * e.majorSemiaxis
         == MinorSemiaxis(e) * MinorSemiaxis(e) * (1.0 + SecondEccentricitySquared(e))
  {
    var a, b := e.majorSemiaxis, MinorSemiaxis(e);
    var e1, e2 := FirstEccentricitySquared(e), SecondEccentricitySquared(e);
    MinorFromFirstEccentricity(e);
    assert b * b == a * a * (1.0 - e1);
    assert (1.0 - e1) * (1.0 + e2) == 1.0 by {
      assert e2 * (1.0 - e1) == e1;
    }
    assert b * b * (1.0 + e2) == a * a * ((1.0 - e1) * (1.0 + e2));
  }

  /** The sphere of the registry: no flattening, both semi-axes equal, no eccentricity. */
  lemma SphereIsRound()
    ensures var s := Lookup(Some("sphere"));
            && Flattening(s) == 0.0
            && MinorSemiaxis(s) == s.majorSemiaxis == 6370997.0
            && FirstEccentricitySquared(s) == 0.0
            && SecondEccentricitySquared(s) == 0.0
  {
    var s := Lookup(Some("sphere"));
    assert s == Ellipsoid(6370997.0, 0.0);
    assert Valid(s);
  }

  /** Every named ellipsoid has 0 <= f < 1, 0 < b <= a, 0 <= e1 < 1 and e1 <= e2. */
  lemma RegistryBounds(name: string)
    requires name in Registry
    ensures var e := Registry[name];
            && 0.0 <= Flattening(e) < 1.0
            && 0.0 < MinorSemiaxis(e) <= e.majorSemiaxis
            && 0.0 <= FirstEccentricitySquared(e) < 1.0
            && FirstEccentricitySquared(e) <= SecondEccentricitySquared(e)
  {
    RegistryValid();
    FlatteningBounds(Registry[name]);
  }

  /**
   * Whatever name the factory is given, known, unknown or none, it yields a proper
   * ellipsoid with the bounds of `RegistryBounds`.
   */
  lemma LookupBounds(name: Option<string>)
    ensures var e := Lookup(name);
            && Valid(e)
            && 0.0 <= Flattening(e) < 1.0
            && 0.0 < MinorSemiaxis(e) <= e.majorSemiaxis
            && 0.0 <= FirstEccentricitySquared(e) < 1.0
            && FirstEccentricitySquared(e) <= SecondEccentricitySquared(e)
  {
    RegistryValid();
    var n := if name.Some? && name.value in Registry then name.value else "WGS84";
    assert Lookup(name) == Registry[n];
    RegistryBounds(n);
  }

  /**
   * Extended reals standing for the float64 values numpy's arithmetic can reach:
   * finite values, the two infinities and not-a-number. Rounding and overflow of
   * finite values are not part of this.
   */
  datatype Float = Finite(x: real) | PosInf | NegInf | NaN

  function Negate(a: Float): (r: Float)
    ensures a.Finite? ==> r == Finite(-a.x)
    ensures a.NaN? <==> r.NaN?
  {
    match a
    case Finite(x) => Finite(-x)
    case PosInf => NegInf
    case NegInf => PosInf
    case NaN => NaN
  }

  /** IEEE 754 addition: infinities of opposite signs give not-a-number. */
  function Add(a: Float, b: Float): (r: Float)
    ensures a.Finite? && b.Finite? ==> r == Finite(a.x + b.x)
    ensures a.NaN? || b.NaN? ==> r.NaN?
    ensures (a.PosInf? && b.NegInf?) || (a.NegInf? && b.PosInf?) ==> r.NaN?
  {
    match (a, b)
    case (NaN, _) => NaN
    case (_, NaN) => NaN
    case (Finite(x), Finite(y)) => Finite(x + y)
    case (PosInf, NegInf) => NaN
    case (NegInf, PosInf) => NaN
    case (PosInf, _) => PosInf
    case (NegInf, _) => NegInf
    case (_, PosInf) => PosInf
    case (_, NegInf) => NegInf
  }

  function Sub(a: Float, b: Float): (r: Float)
    ensures a.Finite? && b.Finite? ==> r == Finite(a.x - b.x)
  {
    Add(a, Negate(b))
  }

  /** The sign of a float: 1, -1, or 0 for zero and not-a-number. */
  function Sign(a: Float): int {
    match a
    case Finite(x) => if x > 0.0 then 1 else if x < 0.0 then -1 else 0
    case PosInf => 1
    case NegInf => -1
    case NaN => 0
  }

  /** IEEE 754 multiplication: an infinity times zero gives not-a-number. */
  function Mul(a: Float, b: Float): (r: Float)
    ensures a.Finite? && b.Finite? ==> r == Finite(a.x * b.x)
    ensures a.NaN? || b.NaN? ==> r.NaN?
  {
    if a.NaN? || b.NaN? then NaN
    else if a.Finite? && b.Finite? then Finite(a.x * b.x)
    else
      var s := Sign(a) * Sign(b);
      if s > 0 then PosInf else if s < 0 then NegInf else NaN
  }

  /** IEEE 754 division of 1 by a float: 1/0 is +inf, 1/inf is 0. */
  function Reciprocal(a: Float): (r: Float)
    ensures a.Finite? && a.x != 0.0 ==> r == Finite(1.0 / a.x)
  {
    match a
    case Finite(x) => if x == 0.0 then PosInf else Finite(1.0 / x)
    case PosInf => Finite(0.0)
    case NegInf => Finite(0.0)
    case NaN => NaN
  }

  /**
   * `flattening` as numpy evaluates it: `1. / numpy.float64(0.)` is +inf and raises
   * nothing, so the branch that sets 0 for a sphere is never taken.
   */
  function FlatteningAsWritten(e: Ellipsoid): (f: Float)
    ensures e.inverseFlattening != 0.0 ==> f == Finite(Flattening(e))
  {
    Reciprocal(Finite(e.inverseFlattening))
  }

  /** `minor_semiaxis` as numpy evaluates it, from the flattening as numpy evaluates it. */
  function MinorSemiaxisAsWritten(e: Ellipsoid): (b: Float)
    ensures e.inverseFlattening != 0.0 ==> b == Finite(MinorSemiaxis(e))
  {
    Mul(Finite(e.majorSemiaxis), Sub(Finite(1.0), FlatteningAsWritten(e)))
  }

  /** `first_eccentricity_squared` as numpy evaluates it. */
  function FirstEccentricitySquaredAsWritten(e: Ellipsoid): (e1: Float)
    ensures e.inverseFlattening != 0.0 ==> e1 == Finite(FirstEccentricitySquared(e))
  {
    var f := FlatteningAsWritten(e);
    Sub(Mul(Finite(2.0), f), Mul(f, f))
  }

  /**
   * For the registry's sphere, numpy's arithmetic makes the flattening +inf, the
   * minor semi-axis -inf and the first eccentricity not-a-number, where the
   * intended values are 0, a and 0 (`SphereIsRound`).
   */
  lemma SphereAsWritten()
    ensures var s := Lookup(Some("sphere"));
            && FlatteningAsWritten(s) == PosInf
            && MinorSemiaxisAsWritten(s) == NegInf
            && FirstEccentricitySquaredAsWritten(s).NaN?
  {
    var s := Lookup(Some("sphere"));
    assert s == Ellipsoid(6370997.0, 0.0);
  }
}

=== FILE: ellipsoid_cache.dfy ===
/**
 * `CoreEllipsoid` as an object with state: the two defining values and four
 * memo slots, filled the first time each derived quantity is read. A slot is
 * recomputed whenever it is empty or holds zero (Python's `if not self._x`), so a
 * sphere's zero flattening and eccentricities are computed on every read. Each
 * accessor is a function from the object's state to the value and the next state.
 */
module EllipsoidCache {
  import opened Wrappers
  import opened Ellipsoids

  /** The memo slots `_flattening`, `_minor_semiaxis`, `_first_eccentricity_squared`, `_second_eccentricity_squared`. */
  datatype Cache = Cache(flattening: Option<real>, minor: Option<real>, e1: Option<real>, e2: Option<real>)

  const Empty: Cache := Cache(None, None, None, None)

  datatype CoreEllipsoid = CoreEllipsoid(params: Ellipsoid, cache: Cache)

  /** What an accessor hands back: the value read and the object's state after the read. */
  datatype Answer = Answer(value: real, core: CoreEllipsoid)

  /** A slot must be (re)computed when it is empty or holds zero. */
  predicate Stale(slot: Option<real>) {
    slot.None? || slot.value == 0.0
  }

  /** A memo slot is sound when it is empty or holds the quantity it names. */
  predicate Holds(slot: Option<real>, v: real) {
    slot.Some? ==> slot.value == v
  }

  /** Every filled slot holds the quantity derived from the defining values. */
  predicate Consistent(c: CoreEllipsoid) {
    var p := c.params;
    && Holds(c.cache.flattening, Flattening(p))
    && Holds(c.cache.minor, MinorSemiaxis(p))
    && Holds(c.cache.e1, FirstEccentricitySquared(p))
    && (c.cache.e2.Some? ==>
          FirstEccentricitySquared(p) != 1.0 && c.cache.e2.value == SecondEccentricitySquared(p))
  }

  /** `CoreEllipsoid(major_semiaxis, flattening)`: the defining values and no memo; it is consistent. */
  function NewCore(majorSemiaxis: real, inverseFlattening: real): (c: CoreEllipsoid)
    ensures c.params.majorSemiaxis == majorSemiaxis && c.params.inverseFlattening == inverseFlattening
    ensures Consistent(c)
    ensures c.cache.flattening.None? && c.cache.minor.None? && c.cache.e1.None? && c.cache.e2.None?
  {
    CoreEllipsoid(Ellipsoid(majorSemiaxis, inverseFlattening), Empty)
  }

  /** `Ellipsoid(name)`: a fresh object for the registry entry of `name`, WGS84's by default. */
  function NewEllipsoid(name: Option<string>): (c: CoreEllipsoid)
    ensures name.Some? && name.value in Registry ==> c.params == Registry[name.value]
    ensures name.None? || name.value !in Registry ==> c.params == Wgs84
    ensures Consistent(c)
  {
    var e := Lookup(name);
    NewCore(e.majorSemiaxis, e.inverseFlattening)
  }

  /** `major_semiaxis`: read straight from the defining values; nothing changes. */
  function MajorSemiaxisOf(c: CoreEllipsoid): (r: Answer)
    ensures r.core == c
    ensures r.value == c.params.majorSemiaxis
  {
    Answer(c.params.majorSemiaxis, c)
  }

  /**
   * `flattening`: from the memo when it holds a nonzero value, otherwise computed
   * and stored. On a consistent object the value is the flattening, the object stays
   * consistent and only the flattening slot may change.
   */
  function CachedFlattening(c: CoreEllipsoid): (r: Answer)
    ensures r.core.params == c.params
    ensures r.core.cache.flattening == Some(r.value)
    ensures r.core.cache.(flattening := c.cache.flattening) == c.cache
    ensures !Stale(c.cache.flattening) ==> r.core == c
    ensures Consistent(c) ==> r.value == Flattening(c.params) && Consistent(r.core)
  {
    if Stale(c.cache.flattening) then
      var f := Flattening(c.params);
      Answer(f, c.(cache := c.cache.(flattening := Some(f))))
    else Answer(c.cache.flattening.value, c)
  }

  /** `minor_semiaxis`: memoised a (1 - f), reading f through the flattening accessor. */
  function CachedMinorSemiaxis(c: CoreEllipsoid): (r: Answer)
    ensures r.core.params == c.params
    ensures r.core.cache.minor == Some(r.value)
    ensures r.core.cache.e1 == c.cache.e1 && r.core.cache.e2 == c.cache.e2
    ensures !Stale(c.cache.minor) ==> r.core == c
    ensures Consistent(c) ==> r.value == MinorSemiaxis(c.params) && Consistent(r.core)
  {
    if Stale(c.cache.minor) then
      var f := CachedFlattening(c);
      var b := c.params.majorSemiaxis * (1.0 - f.value);
      Answer(b, f.core.(cache := f.core.cache.(minor := Some(b))))
    else Answer(c.cache.minor.value, c)
  }

  /** `first_eccentricity_squared`: memoised 2f - f^2, reading f twice through the flattening accessor. */
  function CachedFirstEccentricitySquared(c: CoreEllipsoid): (r: Answer)
    ensures r.core.params == c.params
    ensures r.core.cache.e1 == Some(r.value)
    ensures r.core.cache.minor == c.cache.minor && r.core.cache.e2 == c.cache.e2
    ensures !Stale(c.cache.e1) ==> r.core == c
    ensures Consistent(c) ==> r.value == FirstEccentricitySquared(c.params) && Consistent(r.core)
  {
    if Stale(c.cache.e1) then
      var f1 := CachedFlattening(c);
      var f2 := CachedFlattening(f1.core);
      var e1 := 2.0 * f1.value - f2.value * f2.value;
      Answer(e1, f2.core.(cache := f2.core.cache.(e1 := Some(e1))))
    else Answer(c.cache.e1.value, c)
  }

  /**
   * `second_eccentricity_squared`: memoised e1 / (1 - e1), reading e1 twice through
   * its accessor. The division needs e1 != 1.
   */
  function CachedSecondEccentricitySquared(c: CoreEllipsoid): (r: Answer)
    requires Consistent(c) && FirstEccentricitySquared(c.params) != 1.0
    ensures r.core.params == c.params
    ensures r.core.cache.e2 == Some(r.value)
    ensures r.core.cache.minor == c.cache.minor
    ensures !Stale(c.cache.e2) ==> r.core == c
    ensures r.value == SecondEccentricitySquared(c.params) && Consistent(r.core)
  {
    if Stale(c.cache.e2) then
      var e1a := CachedFirstEccentricitySquared(c);
      var e1b := CachedFirstEccentricitySquared(e1a.core);
      var e2 := e1a.value / (1.0 - e1b.value);
      Answer(e2, e1b.core.(cache := e1b.core.cache.(e2 := Some(e2))))
    else Answer(c.cache.e2.value, c)
  }

  /** The quantities an ellipsoid object can be asked for. */
  datatype Query = Major | Flat | Minor | FirstEcc | SecondEcc

  /** What a query means, independently of any memo. */
  function Meaning(p: Ellipsoid, q: Query): real
    requires q == SecondEcc ==> FirstEccentricitySquared(p) != 1.0
  {
    match q
    case Major => p.majorSemiaxis
    case Flat => Flattening(p)
    case Minor => MinorSemiaxis(p)
    case FirstEcc => FirstEccentricitySquared(p)
    case SecondEcc => SecondEccentricitySquared(p)
  }

  /** One read through the matching accessor. */
  function AskOne(c: CoreEllipsoid, q: Query): (r: Answer)
    requires Consistent(c)
    requires q == SecondEcc ==> FirstEccentricitySquared(c.params) != 1.0
    ensures r.value == Meaning(c.params, q)
    ensures r.core.params == c.params && Consistent(r.core)
  {
    match q
    case Major => MajorSemiaxisOf(c)
    case Flat => CachedFlattening(c)
    case Minor => CachedMinorSemiaxis(c)
    case FirstEcc => CachedFirstEccentricitySquared(c)
    case SecondEcc => CachedSecondEccentricitySquared(c)
  }

  /** Answers to a run of reads, and the object's state after all of them. */
  datatype Answers = Answers(values: seq<real>, core: CoreEllipsoid)

  /** Queries every read of which is defined for the ellipsoid `p`. */
  predicate Answerable(p: Ellipsoid, qs: seq<Query>) {
    SecondEcc in qs ==> FirstEccentricitySquared(p) != 1.0
  }

  /**
   * A run of reads on one object, each seeing the memo the previous ones left.
   * The memo is invisible: whatever the order, every answer is the quantity the
   * defining values determine, the same as a fresh object would give.
   */
  function Ask(c: CoreEllipsoid, qs: seq<Query>): (r: Answers)
    requires Consistent(c) && Answerable(c.params, qs)
    ensures |r.values| == |qs|
    ensures forall i :: 0 <= i < |qs| ==> r.values[i] == Meaning(c.params, qs[i])
    ensures r.core.params == c.params && Consistent(r.core)
    decreases |qs|
  {
    if qs == [] then Answers([], c)
    else
      var first := AskOne(c, qs[0]);
      var rest := Ask(first.core, qs[1..]);
      Answers([first.value] + rest.values, rest.core)
  }

  /** Two objects with the same defining values, whatever their memo, answer every run of reads alike. */
  lemma MemoIsInvisible(c: CoreEllipsoid, d: CoreEllipsoid, qs: seq<Query>)
    requires Consistent(c) && Consistent(d) && c.params == d.params && Answerable(c.params, qs)
    ensures Ask(c, qs).values == Ask(d, qs).values
  {
  }

  /** Reading the same quantity twice gives the same value, the second time from the memo when it is nonzero. */
  lemma ReadTwice(c: CoreEllipsoid, q: Query)
    requires Consistent(c) && Answerable(c.params, [q, q])
    ensures Ask(c, [q, q]).values[0] == Ask(c, [q, q]).values[1]
  {
  }
}

=== FILE: geotime.dfy ===
/**
 * The time-epoch engine of `geotools.time`: one stored instant, counted in
 * nanoseconds from 1970-01-01T00:00 on a uniform time scale (86 400 s days, no
 * leap seconds), with a resolution unit. Every representation the engine offers
 * (calendar date, time of day, year, day of year, GPS week and seconds of week,
 * fractional year, J2000 offset, MJD and JD) is a pure function of that instant.
 * numpy's casts of datetimes and timedeltas to a coarser unit round toward minus
 * infinity, which is Dafny's `/` on a positive divisor.
 */
module GeoTime {
  import opened Wrappers
  import opened Calendar
  import opened Arith

  const NsPerSecond: int := 1_000_000_000
  const SecondsPerDay: int := 86_400
  const NsPerDay: int := 86_400_000_000_000
  const SecondsPerWeek: int := 604_800
  const NsPerWeek: int := 604_800_000_000_000

  /** The time units a resolution may name: D, h, m, s, ms, us and ns. */
  datatype Unit = Day | Hour | Minute | Second | Milli | Micro | Nano

  /** Length of one `u`, in nanoseconds; every unit divides a day. */
  function UnitNs(u: Unit): (n: int)
    ensures 0 < n <= NsPerDay && NsPerDay % n == 0
  {
    match u
    case Day => NsPerDay
    case Hour => 3_600_000_000_000
    case Minute => 60_000_000_000
    case Second => NsPerSecond
    case Milli => 1_000_000
    case Micro => 1_000
    case Nano => 1
  }

  /** An instant, or numpy's not-a-time sentinel. */
  datatype Instant = NaT | At(ns: int)

  /** A time value: the stored instant and its resolution. */
  datatype CoreGeoTime = CoreGeoTime(t: Instant, resolution: Unit)

  /** The instant at `hours` o'clock of the calendar date `year`-`month`-`day`. */
  function CivilInstant(year: int, month: int, day: int, hours: int): (ns: int)
    requires 1 <= month <= 12 && 1 <= day <= MonthLength(month, IsLeap(year))
    requires 0 <= hours < 24
    ensures YearStart(year) * NsPerDay <= ns < YearStart(year + 1) * NsPerDay
  {
    (CivilDay(year, month, day) * SecondsPerDay + hours * 3600) * NsPerSecond
  }

  /** The time origins of `CoreGeoTime`, in nanoseconds from 1970-01-01T00:00. */
  const J2000Epoch: int := 946_728_000 * NsPerSecond      // 2000-01-01T12:00
  const Gpst0: int := 315_964_800 * NsPerSecond           // 1980-01-06T00:00
  const Mjd0: int := -3_506_716_800 * NsPerSecond         // 1858-11-17T00:00
  /** From MJD 0 to the J2000 epoch: 51 544.5 days. */
  const MjdOfJ2000: int := J2000Epoch - Mjd0
  /** From JD 0 to MJD 0: 2 400 000 days and 12 hours. */
  const JdOfMjd0: int := 2_400_000 * NsPerDay + 12 * 3600 * NsPerSecond
  /**
   * Noon of 24 November 4714 BC (astronomical year -4713) in the proleptic Gregorian
   * calendar, the origin of the Julian Date. The engine never uses it; it is the
   * independent reference `ToJd` is checked against.
   */
  const JulianDayZero: int := -210_866_760_000 * NsPerSecond

  /** Each time origin is the calendar date and hour it is named after. */
  lemma EpochsAreCalendarDates()
    ensures J2000Epoch == CivilInstant(2000, 1, 1, 12)
    ensures Gpst0 == CivilInstant(1980, 1, 6, 0)
    ensures Mjd0 == CivilInstant(1858, 11, 17, 0)
    ensures JulianDayZero == CivilInstant(-4713, 11, 24, 12)
    ensures 2 * MjdOfJ2000 == 103_089 * NsPerDay
  {
    assert CivilDay(2000, 1, 1) == 10957;
    assert CivilDay(1980, 1, 6) == 3657;
    assert CivilDay(1858, 11, 17) == -40587;
    assert CivilDay(-4713, 11, 24) == -2440588;
  }

  /**
   * `_set_resolution`'s last step: the instant cast to `u`, i.e. floored to a
   * multiple of `u`.
   */
  function FixAt(t: Instant, u: Unit): (r: Instant)
    ensures r.NaT? <==> t.NaT?
    ensures r.At? ==> r.ns % UnitNs(u) == 0 && r.ns <= t.ns < r.ns + UnitNs(u)
  {
    match t
    case NaT => NaT
    case At(ns) =>
      FloorMultiple(ns, UnitNs(u));
      At(ns / UnitNs(u) * UnitNs(u))
  }

  /**
   * The generic constructor with `_set_resolution`: the resolution is the one given,
   * or else the timestamp's own unit `native`; a NaT gets 1 second. The stored
   * instant is fixed at the resolution.
   */
  function FromTimestamp(t: Instant, native: Unit, resolution: Option<Unit>): (g: CoreGeoTime)
    ensures g.t.NaT? <==> t.NaT?
    ensures t.NaT? ==> g.resolution == Second
    ensures t.At? ==> g.resolution == OrElse(resolution, native)
    ensures t.At? ==> g.t.ns % UnitNs(g.resolution) == 0
                      && g.t.ns <= t.ns < g.t.ns + UnitNs(g.resolution)
  {
    match t
    case NaT => CoreGeoTime(NaT, Second)
    case At(_) =>
      var u := OrElse(resolution, native);
      CoreGeoTime(FixAt(t, u), u)
  }

  /** Fixing an instant at a unit twice is fixing it once. */
  lemma FixAtIdempotent(t: Instant, u: Unit)
    ensures FixAt(FixAt(t, u), u) == FixAt(t, u)
  {
    if t.At? {
      var n := UnitNs(u);
      var k := t.ns / n;
      assert FixAt(t, u).ns == k * n;
      MulMod(k, n);
    }
  }

  /** `date`: the instant floored to the start of its day. */
  function Date(g: CoreGeoTime): (r: Instant)
    ensures r.NaT? <==> g.t.NaT?
    ensures r.At? ==> r.ns % NsPerDay == 0 && r.ns <= g.t.ns < r.ns + NsPerDay
  {
    FixAt(g.t, Day)
  }

  /** Day number (days since 1970-01-01) of an instant. */
  function DayNumber(ns: int): (d: int)
    ensures d * NsPerDay <= ns < (d + 1) * NsPerDay
  {
    ns / NsPerDay
  }

  /** `time`: nanoseconds elapsed since the start of the day. */
  function TimeOfDay(g: CoreGeoTime): (r: Option<int>)
    ensures r.Some? <==> g.t.At?
    ensures r.Some? ==> 0 <= r.value < NsPerDay && r.value == g.t.ns - DayNumber(g.t.ns) * NsPerDay
  {
    match Date(g)
    case NaT => None
    case At(midnight) => Some(g.t.ns - midnight)
  }

  /** `year`: the calendar year the instant falls in. */
  function Year(g: CoreGeoTime): (r: Option<int>)
    ensures r.Some? <==> g.t.At?
    ensures r.Some? ==> YearStart(r.value) * NsPerDay <= g.t.ns < YearStart(r.value + 1) * NsPerDay
  {
    match g.t
    case NaT => None
    case At(ns) => Some(YearOfDay(DayNumber(ns)).year)
  }

  /** `is_leap`: the leap rule applied to the instant's year. */
  function IsLeapYear(g: CoreGeoTime): (r: Option<bool>)
    ensures r.Some? <==> g.t.At?
    ensures r.Some? ==> (r.value <==> YearStart(Year(g).value + 1) - YearStart(Year(g).value) == 366)
  {
    match Year(g)
    case None => None
    case Some(y) => Some(IsLeap(y))
  }

  /** `days_of_year`: 1 on 1 January, counted from the start of the instant's year. */
  function DaysOfYear(g: CoreGeoTime): (r: Option<int>)
    ensures r.Some? <==> g.t.At?
    ensures r.Some? ==> 1 <= r.value <= DaysInYear(Year(g).value)
    ensures r.Some? ==> r.value == DayNumber(g.t.ns) - YearStart(Year(g).value) + 1
  {
    match (Date(g), Year(g))
    case (At(midnight), Some(y)) => Some(midnight / NsPerDay - YearStart(y) + 1)
    case _ => None
  }

  /** `seconds_of_day`: whole seconds elapsed since the start of the day. */
  function SecondsOfDay(g: CoreGeoTime): (r: Option<int>)
    ensures r.Some? <==> g.t.At?
    ensures r.Some? ==> 0 <= r.value < SecondsPerDay
    ensures r.Some? ==> r.value * NsPerSecond <= TimeOfDay(g).value < (r.value + 1) * NsPerSecond
  {
    match TimeOfDay(g)
    case None => None
    case Some(time) => Some(time / NsPerSecond)
  }

  /** `fraction_of_seconds`: what the time of day holds below a whole second, in nanoseconds. */
  function FractionOfSeconds(g: CoreGeoTime): (r: Option<int>)
    ensures r.Some? <==> g.t.At?
    ensures r.Some? ==> 0 <= r.value < NsPerSecond && r.value == g.t.ns % NsPerSecond
    ensures r.Some? ==> TimeOfDay(g).value == SecondsOfDay(g).value * NsPerSecond + r.value
  {
    match (TimeOfDay(g), SecondsOfDay(g))
    case (Some(time), Some(seconds)) =>
      BelowASecond(g.t.ns);
      Some(time - seconds * NsPerSecond)
    case _ => None
  }

  /**
   * What the time of day holds below a whole second is what the instant holds below
   * one: a day is a whole number of seconds.
   */
  lemma BelowASecond(ns: int)
    ensures var time := ns - DayNumber(ns) * NsPerDay;
            time - time / NsPerSecond * NsPerSecond == ns % NsPerSecond
  {
    var time := ns - DayNumber(ns) * NsPerDay;
    assert time == ns + (-DayNumber(ns) * SecondsPerDay) * NsPerSecond;
    ModOfShift(ns, -DayNumber(ns) * SecondsPerDay, NsPerSecond);
  }

  /** 10 to the power k: a helper for `DecimalStep`, whose contract carries the content. */
  function Pow10(k: nat): (p: int)
    ensures p >= 1
  {
    if k == 0 then 1 else 10 * Pow10(k - 1)
  }

  /** Decimals of the seconds of week that `GPST` reports for a resolution. */
  function Decimals(resolution: Unit): (k: nat)
    ensures k <= 9
  {
    if UnitNs(resolution) >= NsPerSecond then 0
    else if UnitNs(resolution) >= 1_000_000 then 3
    else if UnitNs(resolution) >= 1_000 then 6
    else 9
  }

  /** The smallest step, in nanoseconds, those decimals can show. */
  function DecimalStep(resolution: Unit): (n: int)
    ensures n > 0 && n * Pow10(Decimals(resolution)) == NsPerSecond
  {
    match Decimals(resolution)
    case 0 => NsPerSecond
    case 3 => 1_000_000
    case 6 => 1_000
    case _ => 1
  }

  /**
   * The sub-second part `GPST` keeps: whole milliseconds of the fraction for a
   * resolution finer than 1 s, then whole microseconds of what is left for one
   * finer than 1 ms, then the nanoseconds left for one finer than 1 us. It is the
   * fraction truncated to the reported decimals.
   */
  function KeptFraction(fraction: int, resolution: Unit): (kept: int)
    requires 0 <= fraction < NsPerSecond
    ensures 0 <= kept <= fraction < kept + DecimalStep(resolution)
    ensures kept % DecimalStep(resolution) == 0
  {
    if UnitNs(resolution) < NsPerSecond then
      var ms := fraction / 1_000_000 * 1_000_000;
      if UnitNs(resolution) < 1_000_000 then
        var us := (fraction - ms) / 1_000 * 1_000;
        if UnitNs(resolution) < 1_000 then ms + us + (fraction - ms - us)
        else ms + us
      else ms
    else 0
  }

  /**
   * GPS week number and seconds of week; the seconds are kept exactly as whole
   * seconds plus nanoseconds, and `SecondsOfWeek` reads them as one number.
   */
  datatype GpsTime = GpsTime(week: int, seconds: int, nanos: int) {
    function SecondsOfWeek(): real {
      seconds as real + nanos as real / NsPerSecond as real
    }
  }

  /**
   * `GPST`: whole weeks since the GPS zero point, then the seconds into that week
   * with the sub-second part truncated to the decimals the resolution allows.
   */
  function Gpst(g: CoreGeoTime): (r: Option<GpsTime>)
    ensures r.Some? <==> g.t.At?
    ensures r.Some? ==> 0 <= r.value.seconds < SecondsPerWeek && 0 <= r.value.nanos < NsPerSecond
    ensures r.Some? ==> r.value.nanos % DecimalStep(g.resolution) == 0
    ensures r.Some? ==>
      var reported := r.value.week * NsPerWeek + r.value.seconds * NsPerSecond + r.value.nanos;
      reported <= g.t.ns - Gpst0 < reported + DecimalStep(g.resolution)
  {
    match g.t
    case NaT => None
    case At(ns) =>
      GpsZeroIsWholeSecond(ns);
      var delta := ns - Gpst0;
      var weeks := delta / NsPerWeek;
      var seconds := (delta - weeks * NsPerWeek) / NsPerSecond;
      var fraction := FractionOfSeconds(g).value;
      WeekSplit(delta, weeks, seconds, fraction);
      var kept := KeptFraction(fraction, g.resolution);
      Some(GpsTime(weeks, seconds, kept))
  }

  /**
   * `to_fYear`: the year plus the 1-based day of year over the length of the year,
   * so the value lies in (year, year + 1] and 1 January already reads year + 1/365.
   */
  function ToFYear(g: CoreGeoTime): (r: Option<real>)
    ensures r.Some? <==> g.t.At?
    ensures r.Some? ==> Year(g).value as real < r.value <= Year(g).value as real + 1.0
  {
    match (Year(g), DaysOfYear(g), IsLeapYear(g))
    case (Some(y), Some(doy), Some(leap)) =>
      var n := 365 + if leap then 1 else 0;
      LengthOfYear(g);
      YearShare(y, doy, n);
      Some(y as real + doy as real / n as real)
    case _ => None
  }

  /**
   * `to_fYear` counting days from 0 instead of 1: the year plus the days completed
   * before the instant's day over the length of the year, a value in [year, year + 1).
   */
  function ToFYearFromDayZero(g: CoreGeoTime): (r: Option<real>)
    ensures r.Some? <==> g.t.At?
    ensures r.Some? ==> Year(g).value as real <= r.value < Year(g).value as real + 1.0
    ensures r.Some? ==>
      r.value == Year(g).value as real
                 + (DayNumber(g.t.ns) - YearStart(Year(g).value)) as real / DaysInYear(Year(g).value) as real
  {
    match (Year(g), DaysOfYear(g), IsLeapYear(g))
    case (Some(y), Some(doy), Some(leap)) =>
      var n := 365 + if leap then 1 else 0;
      LengthOfYear(g);
      YearShare(y, doy - 1, DaysInYear(y));
      Some(y as real + (doy - 1) as real / n as real)
    case _ => None
  }

  /** 365 days, one more in a leap year: the length of the instant's year. */
  lemma LengthOfYear(g: CoreGeoTime)
    requires g.t.At?
    ensures 365 + (if IsLeapYear(g).value then 1 else 0) == DaysInYear(Year(g).value)
  {
  }

  /** Year `y` plus `k` of its `n` days: between `y` and `y + 1`, and `k` days past `y`. */
  lemma YearShare(y: int, k: int, n: int)
    requires 0 <= k <= n && 0 < n
    ensures var r := y as real + k as real / n as real;
            && y as real <= r <= y as real + 1.0
            && (k < n ==> r < y as real + 1.0)
            && (0 < k ==> y as real < r)
  {
    Ratio(k, n);
  }

  /** Year, day of year and seconds of day (with their fraction). */
  datatype YD = YD(year: int, day: int, seconds: real)

  /** `to_YD`: the year, the 1-based day of year, and the time of day in seconds. */
  function ToYD(g: CoreGeoTime): (r: Option<YD>)
    ensures r.Some? <==> g.t.At?
    ensures r.Some? ==> r.value.year == Year(g).value && r.value.day == DaysOfYear(g).value
    ensures r.Some? ==> 0.0 <= r.value.seconds < SecondsPerDay as real
    ensures r.Some? ==> r.value.seconds * NsPerSecond as real == TimeOfDay(g).value as real
  {
    match (Year(g), DaysOfYear(g), SecondsOfDay(g), FractionOfSeconds(g))
    case (Some(y), Some(doy), Some(sod), Some(ns)) =>
      var seconds := sod as real + ns as real / NsPerSecond as real;
      assert seconds * NsPerSecond as real == (sod * NsPerSecond + ns) as real;
      Some(YD(y, doy, seconds))
    case _ => None
  }

  /** Whole seconds since the J2000 epoch, and the rest counted in the resolution's unit. */
  datatype J2000Offset = J2000Offset(seconds: int, fraction: int)

  /**
   * `J2000`: the time since 2000-01-01T12:00 floored to whole seconds, and what is
   * left floored to the resolution.
   */
  function SinceJ2000(g: CoreGeoTime): (r: Option<J2000Offset>)
    ensures r.Some? <==> g.t.At?
    ensures r.Some? ==>
      var delta := g.t.ns - J2000Epoch;
      var rest := delta - r.value.seconds * NsPerSecond;
      && 0 <= rest < NsPerSecond
      && r.value.fraction * UnitNs(g.resolution) <= rest < (r.value.fraction + 1) * UnitNs(g.resolution)
      && 0 <= r.value.fraction * UnitNs(g.resolution) < NsPerSecond
  {
    match g.t
    case NaT => None
    case At(ns) =>
      var delta := ns - J2000Epoch;
      var seconds := delta / NsPerSecond;
      var fraction := (delta - seconds * NsPerSecond) / UnitNs(g.resolution);
      FloorMultiple(delta - seconds * NsPerSecond, UnitNs(g.resolution));
      Some(J2000Offset(seconds, fraction))
  }

  /** `to_MJD`: MJD of the J2000 epoch plus the time since it, in days. */
  function ToMjd(g: CoreGeoTime): (r: Option<real>)
    ensures r.Some? <==> g.t.At?
    ensures r.Some? ==> r.value == (g.t.ns - Mjd0) as real / NsPerDay as real
  {
    match g.t
    case NaT => None
    case At(ns) => Some((MjdOfJ2000 + (ns - J2000Epoch)) as real / NsPerDay as real)
  }

  /** `to_JD`: JD of MJD 0 (2 400 000.5) plus the MJD; days since noon of 24 November 4714 BC. */
  function ToJd(g: CoreGeoTime): (r: Option<real>)
    ensures r.Some? <==> g.t.At?
    ensures r.Some? ==> r.value == (g.t.ns - JulianDayZero) as real / NsPerDay as real
  {
    match ToMjd(g)
    case None => None
    case Some(mjd) =>
      assert JdOfMjd0 == Mjd0 - JulianDayZero;
      Some(JdOfMjd0 as real / NsPerDay as real + mjd)
  }

  /** The GPS zero point falls on a whole second, so it leaves the sub-second part alone. */
  lemma GpsZeroIsWholeSecond(ns: int)
    ensures (ns - Gpst0) % NsPerSecond == ns % NsPerSecond
  {
  }

  /** Elapsed time split into whole weeks, whole seconds of week and a sub-second part. */
  lemma WeekSplit(delta: int, weeks: int, seconds: int, fraction: int)
    requires weeks == delta / NsPerWeek
    requires seconds == (delta - weeks * NsPerWeek) / NsPerSecond
    requires fraction == delta % NsPerSecond
    ensures 0 <= seconds < SecondsPerWeek
    ensures weeks * NsPerWeek + seconds * NsPerSecond + fraction == delta
  {
  }


  /** An instant inside year `y`'s range reads year `y` and day `d - YearStart(y) + 1`. */
  lemma YearOfInstant(ns: int, y: int, u: Unit)
    requires YearStart(y) * NsPerDay <= ns < YearStart(y + 1) * NsPerDay
    ensures Year(CoreGeoTime(At(ns), u)) == Some(y)
    ensures DaysOfYear(CoreGeoTime(At(ns), u)) == Some(DayNumber(ns) - YearStart(y) + 1)
  {
    var d := DayNumber(ns);
    assert YearStart(y) <= d < YearStart(y + 1);
    YearOfDayUnique(d, y);
  }

  /** Any time on 1 January is day 1 of its year. */
  lemma NewYearIsDayOne(y: int, x: int, u: Unit)
    requires 0 <= x < NsPerDay
    ensures Year(CoreGeoTime(At(YearStart(y) * NsPerDay + x), u)) == Some(y)
    ensures DaysOfYear(CoreGeoTime(At(YearStart(y) * NsPerDay + x), u)) == Some(1)
  {
    var ns := YearStart(y) * NsPerDay + x;
    assert DaysInYear(y) == YearStart(y + 1) - YearStart(y);
    assert DayNumber(ns) == YearStart(y);
    YearOfInstant(ns, y, u);
  }

  /** The MJD at the two origins: 51 544.5 at J2000 and 0 at MJD 0; JD 2 451 545 at J2000. */
  lemma MjdAtOrigins(u: Unit)
    ensures ToMjd(CoreGeoTime(At(J2000Epoch), u)) == Some(51544.5)
    ensures ToMjd(CoreGeoTime(At(Mjd0), u)) == Some(0.0)
    ensures ToJd(CoreGeoTime(At(J2000Epoch), u)) == Some(2451545.0)
  {
  }

  /** One day later, the MJD is one more. */
  lemma MjdNextDay(ns: int, u: Unit)
    ensures ToMjd(CoreGeoTime(At(ns + NsPerDay), u)).value
         == ToMjd(CoreGeoTime(At(ns), u)).value + 1.0
  {
  }

  /** JD and MJD of every instant differ by 2 400 000.5 days. */
  lemma JdMinusMjd(g: CoreGeoTime)
    requires g.t.At?
    ensures ToJd(g).value - ToMjd(g).value == 2400000.5
  {
  }

  /**
   * Fixing at a fine unit and then at a coarser one it divides is fixing at the
   * coarser one directly.
   */
  lemma FixAtCoarser(t: Instant, fine: Unit, coarse: Unit)
    requires UnitNs(coarse) % UnitNs(fine) == 0
    ensures FixAt(FixAt(t, fine), coarse) == FixAt(t, coarse)
  {
    if t.At? {
      FloorOfFloor(t.ns, UnitNs(fine), UnitNs(coarse));
    }
  }
}

=== FILE: time_as_written.dfy ===
/**
 * Two places where `CoreGeoTime` as written does not compute what its arithmetic is
 * for, on an object whose `t` holds the instant.
 *
 * The name `J2000` in the class body. The body first binds it to the epoch
 * 2000-01-01T12:00 and later rebinds it to the property that reports the offset from
 * that epoch. A Python class body keeps the last binding, so every `self.J2000` reads
 * the property, and the property's first step reads `self.J2000` again. Evaluation
 * is modelled with a count of the stack frames Python has left; each read uses one.
 *
 * The local `decimals` of `GPST`, which is bound only for resolutions finer than 1 s.
 */
module GeoTimeAsWritten {
  import opened Wrappers
  import opened GeoTime

  /** What a class attribute is bound to: a stored instant, or a property to evaluate. */
  datatype Binding = Constant(ns: int) | Property

  /** The binding the name ends with as written: the property replaces the constant. */
  const J2000AsWritten: Binding := Property

  /** The binding the engine's arithmetic needs: the epoch itself. */
  const J2000Intended: Binding := Constant(J2000Epoch)

  /** How a read ends: with a value, with Python's recursion limit, or with a type error. */
  datatype Outcome<T> = Value(v: T) | RecursionError | TypeError

  /**
   * Two more lines of the J2000 arithmetic fail in numpy even once the name reads the
   * epoch. Line 273 passes the resolution, a `timedelta64`, where `np.timedelta64`
   * wants a unit string. Line 283 adds the `timedelta64` `JD_MJD0` to the float that
   * `to_MJD` returns. Both raise `TypeError`. `Completed` takes the resolution's unit
   * at line 273 and `JD_MJD0` in days at line 283.
   */
  datatype Lines = AsWritten | Completed

  /**
   * `self.J2000` used as an instant, with `frames` frames left. A constant gives its
   * instant; the property is evaluated, and what it returns is an offset, not an instant.
   */
  function ReadJ2000(b: Binding, ns: int, res: Unit, lines: Lines, frames: nat): (r: Outcome<int>)
    ensures b.Constant? && frames > 0 ==> r == Value(b.ns)
    ensures b.Property? ==> !r.Value?
    decreases frames, 0
  {
    if frames == 0 then RecursionError
    else
      match b
      case Constant(epoch) => Value(epoch)
      case Property =>
        match J2000Property(b, ns, res, lines, frames - 1)
        case Value(_) => TypeError
        case RecursionError => RecursionError
        case TypeError => TypeError
  }

  /**
   * The `J2000` property of the instant `ns`: the offset from `self.J2000` in whole
   * seconds, and the rest in units of the resolution. With the epoch bound it is
   * `SinceJ2000` once line 273 is completed, and a `TypeError` as written.
   */
  function J2000Property(b: Binding, ns: int, res: Unit, lines: Lines, frames: nat): (r: Outcome<J2000Offset>)
    ensures b == J2000Intended && frames >= 2 && lines == Completed ==>
              r == Value(SinceJ2000(CoreGeoTime(At(ns), res)).value)
    ensures b == J2000Intended && frames >= 2 && lines == AsWritten ==> r == TypeError
    decreases frames, 1
  {
    if frames == 0 then RecursionError
    else
      match ReadJ2000(b, ns, res, lines, frames - 1)
      case Value(epoch) =>
        if lines == AsWritten then TypeError
        else
          var delta := ns - epoch;
          var seconds := delta / NsPerSecond;
          Value(J2000Offset(seconds, (delta - seconds * NsPerSecond) / UnitNs(res)))
      case RecursionError => RecursionError
      case TypeError => TypeError
  }

  /**
   * `to_MJD` of the instant `ns`, reading `self.J2000`: a `timedelta64` divided by one
   * day, which numpy computes. With the epoch bound it is `ToMjd`.
   */
  function ToMjdVia(b: Binding, ns: int, res: Unit, lines: Lines, frames: nat): (r: Outcome<real>)
    ensures b == J2000Intended && frames >= 1 ==> r == Value(ToMjd(CoreGeoTime(At(ns), res)).value)
    ensures b.Property? ==> !r.Value?
  {
    match ReadJ2000(b, ns, res, lines, frames)
    case Value(epoch) => Value((MjdOfJ2000 + (ns - epoch)) as real / NsPerDay as real)
    case RecursionError => RecursionError
    case TypeError => TypeError
  }

  /**
   * `to_JD`: `JD_MJD0` plus `to_MJD`. With the epoch bound it is `ToJd` once line 283
   * is completed, and a `TypeError` as written.
   */
  function ToJdVia(b: Binding, ns: int, res: Unit, lines: Lines, frames: nat): (r: Outcome<real>)
    ensures b == J2000Intended && frames >= 1 && lines == Completed ==>
              r == Value(ToJd(CoreGeoTime(At(ns), res)).value)
    ensures b == J2000Intended && frames >= 1 && lines == AsWritten ==> r == TypeError
    ensures b.Property? ==> !r.Value?
  {
    match ToMjdVia(b, ns, res, lines, frames)
    case Value(mjd) =>
      if lines == AsWritten then TypeError
      else Value(JdOfMjd0 as real / NsPerDay as real + mjd)
    case RecursionError => RecursionError
    case TypeError => TypeError
  }

  /**
   * As written, reading `J2000` never returns, however deep the stack: every read of
   * the property starts another one, until the recursion limit is hit.
   */
  lemma {:induction false} J2000NeverReturns(ns: int, res: Unit, lines: Lines, frames: nat)
    ensures ReadJ2000(J2000AsWritten, ns, res, lines, frames) == RecursionError
    ensures J2000Property(J2000AsWritten, ns, res, lines, frames) == RecursionError
    decreases frames
  {
    if frames > 0 {
      J2000NeverReturns(ns, res, lines, frames - 1);
    }
  }

  /**
   * As written, `J2000`, `to_MJD` and `to_JD` of any instant end in a recursion error.
   * With the epoch bound, `to_MJD` answers (MJD 51 544.5 at the epoch itself), while
   * `J2000` and `to_JD` answer exactly when lines 273 and 283 are completed.
   */
  lemma J2000QueriesFail(ns: int, res: Unit, lines: Lines, frames: nat)
    requires frames >= 2
    ensures J2000Property(J2000AsWritten, ns, res, lines, frames) == RecursionError
    ensures ToMjdVia(J2000AsWritten, ns, res, lines, frames) == RecursionError
    ensures ToJdVia(J2000AsWritten, ns, res, lines, frames) == RecursionError
    ensures J2000Property(J2000Intended, ns, res, lines, frames).Value? <==> lines == Completed
    ensures ToJdVia(J2000Intended, ns, res, lines, frames).Value? <==> lines == Completed
    ensures ToMjdVia(J2000Intended, ns, res, lines, frames).Value?
    ensures ns == J2000Epoch ==> ToMjdVia(J2000Intended, ns, res, lines, frames) == Value(51544.5)
  {
    J2000NeverReturns(ns, res, lines, frames);
    MjdAtOrigins(res);
  }

  /**
   * `decimals` in `GPST` as written: bound to 3, 6 or 9 only inside the branch for a
   * resolution finer than 1 s. `None` is the name left unbound, so that the rounding
   * after the branch raises `UnboundLocalError` for a resolution of D, h, m or s.
   */
  function GpstDecimalsAsWritten(resolution: Unit): (r: Option<nat>)
    ensures r.None? <==> UnitNs(resolution) >= NsPerSecond
    ensures r.Some? ==> r.value == Decimals(resolution)
  {
    if UnitNs(resolution) < NsPerSecond then
      if UnitNs(resolution) < 1_000_000 then
        if UnitNs(resolution) < 1_000 then Some(9) else Some(6)
      else Some(3)
    else None
  }

  /**
   * At a resolution of 1 s or coarser, `GPST` as written has no `decimals` to round
   * to, where the corrected reading reports whole seconds: 0 decimals and no fraction.
   */
  lemma GpstUnboundAtCoarseResolution(g: CoreGeoTime)
    requires g.t.At? && UnitNs(g.resolution) >= NsPerSecond
    ensures GpstDecimalsAsWritten(g.resolution) == None
    ensures Decimals(g.resolution) == 0
    ensures Gpst(g).Some? && Gpst(g).value.nanos == 0
  {
    assert DecimalStep(g.resolution) == NsPerSecond;
  }

  /** 1.5 s after the GPS zero point at a resolution of 1 s: week 0, second 1, as written unbound. */
  lemma GpstCoarseExample(ns: int)
    requires ns == Gpst0 + 1_500_000_000
    ensures GpstDecimalsAsWritten(Second) == None
    ensures Gpst(CoreGeoTime(At(ns), Second)) == Some(GpsTime(0, 1, 0))
  {
    var g := CoreGeoTime(At(ns), Second);
    GpstUnboundAtCoarseResolution(g);
  }
}

=== FILE: wrappers.dfy ===
/** An optional value: the answer of a query that has none for numpy's NaT. */
module Wrappers {

  datatype Option<T> = None | Some(value: T)

  /** The value held, or `fallback` when there is none. */
  function OrElse<T>(o: Option<T>, fallback: T): (r: T)
    ensures o.Some? ==> r == o.value
    ensures o.None? ==> r == fallback
  {
    if o.Some? then o.value else fallback
  }
}
